=== FILE: README.md ===
# Piping-drawing vision proof of concept: the pure core, in Dafny

`test_vision_poc.py` sends a piping drawing to a hosted vision model. The
model replies with a bill of materials as JSON. The script then prints that
bill of materials and saves the parsed reply as a JSON file in the working
directory. Around the one network call sit four small pieces of pure string
logic, and this project models them and proves what they do:

- **Media type** (`MediaTypes`). The image's suffix is lower-cased and looked
  up among `.jpg`, `.jpeg`, `.png`, `.gif` and `.webp`. Anything else is sent
  as `image/jpeg`. The lookup rests on a model of `pathlib`'s `name`,
  `suffix` and `stem` (`Paths`) and of `str.lower` (`Text`).
- **Fence stripping** (`Fences`). A reply wrapped in a markdown code fence
  is unwrapped before `json.loads` sees it. A `json`-tagged fence is
  preferred to a bare one. The payload runs from just after the first opening
  marker to the last fence, and is then stripped of whitespace. The module
  also models what the script shows when the payload does not parse.
- **Output file name** (`Paths.OutputName`). The output is named after the
  stem of the input's final path component, followed by `_extracted.json`.
- **Report** (`Report`). `print_bom` is recast as a function from the parsed
  reply to the lines it prints. The report is first laid out as a sequence
  of pieces, one per `print` call (`Template`). The pieces are then printed
  in order (`Execute`). A confidence that cannot be formatted as a
  percentage raises in Python. In the model, printing stops at that piece
  and the error is returned.

`Text` holds the Python string primitives the rest relies on, with Python's
meaning: `find`, `rfind`, `strip()` over the `str.isspace` characters,
`lower()` and `c * n`; Python's clamped slice is `Fences.Slice`. `Wrappers` holds `Option` and `Result`.

Python's `str.lower` is modelled as ASCII case folding. For the media-type
lookup this gives the same answer as full Unicode lower-casing. The only
non-ASCII character whose lower case is an ASCII letter is the Kelvin sign,
which lower-cases to `k`, and no recognised suffix contains `k`.

## Model

| member | source | states |
|---|---|---|
| Text.Find | test_vision_poc.py:187 | `str.find`: -1 exactly when the pattern does not occur; otherwise an occurrence with none before it |
| Text.RFind | test_vision_poc.py:188 | `str.rfind`: -1 exactly when the pattern does not occur; otherwise an occurrence with none after it |
| Text.RFindIs | test_vision_poc.py:188 | an occurrence followed by no further copy of the pattern's last character is the one `rfind` reports |
| Text.Strip | test_vision_poc.py:189 | `strip()` removes a whitespace-only prefix and suffix and leaves no whitespace at either end; the result is empty exactly when the text is all whitespace |
| Text.StripUnique | test_vision_poc.py:189 | any string obtained by removing whitespace-only ends and leaving non-whitespace ends is the one `strip()` returns |
| Text.StripIdempotent | test_vision_poc.py:193 | stripping a stripped payload changes nothing |
| Text.Lower | test_vision_poc.py:37 | `lower()` keeps the length and folds each character on its own |
| Text.LowerKeepsOccurrences | test_vision_poc.py:37 | lower-casing keeps every `/` and `.` where it was |
| Paths.Name | test_vision_poc.py:305 | the final path component holds no `/`, is never `.`, and is empty or a part of the path |
| Paths.NameOfJoin | test_vision_poc.py:305 | `dir/n` has final component `n`: the directory part is dropped |
| Paths.NameTrailingSlash | test_vision_poc.py:305 | a trailing `/` does not change the final component |
| Paths.NameLower | test_vision_poc.py:37 | the final component of the lower-cased path is the lower-cased final component |
| Paths.Suffix | test_vision_poc.py:37 | a suffix is empty, or a dot followed by at least one character and no further dot; it ends the component |
| Paths.Stem | test_vision_poc.py:305 | the stem begins the component |
| Paths.StemSuffixSplit | test_vision_poc.py:305 | stem followed by suffix is the whole component, and a component with a suffix has a non-empty stem |
| Paths.SplitExtension | test_vision_poc.py:37 | `base.ext` has suffix `.ext` and stem `base` |
| Paths.LeadingDotIsNotSuffix | test_vision_poc.py:37 | a component whose only dot is its first character, such as `.png`, has no suffix |
| Paths.SuffixLower | test_vision_poc.py:37 | the suffix of the lower-cased component is the lower-cased suffix |
| Paths.OutputName | test_vision_poc.py:305 | the output name ends with `_extracted.json` and holds no `/`; what comes before that tail, followed by the input's suffix, is the input's final component |
| Paths.OutputNameOfJoin | test_vision_poc.py:305 | `dir/base.ext` is saved as `base_extracted.json` |
| Paths.OutputNameOfBare | test_vision_poc.py:305 | `base.ext` is saved as `base_extracted.json` |
| Paths.SampleOutputName | test_vision_poc.py:305 | `sample.png` is saved as `sample_extracted.json` |
| MediaTypes.ForSuffix | test_vision_poc.py:38-45 | PNG, GIF and WebP exactly for their own suffix; JPEG exactly for every other suffix, `.jpg`, `.jpeg` and unknown ones alike |
| MediaTypes.ForPath | test_vision_poc.py:37-45 | PNG, GIF or WebP exactly when the lower-cased suffix of the final component is `.png`, `.gif` or `.webp` |
| MediaTypes.MediaType.Label | test_vision_poc.py:39-43 | the `media_type` sent is one of `image/jpeg`, `image/png`, `image/gif`, `image/webp` |
| MediaTypes.LabelInjective | test_vision_poc.py:38-44 | no two media types share a label |
| MediaTypes.ForPathIgnoresCase | test_vision_poc.py:37 | lower-casing the whole path does not change the media type |
| MediaTypes.ForPathOfFile | test_vision_poc.py:37-45 | `dir/base.ext` gets the type of its lower-cased extension |
| MediaTypes.ForPathOfBare | test_vision_poc.py:37-45 | `base.ext` gets the type of its lower-cased extension |
| MediaTypes.HiddenFileIsJpeg | test_vision_poc.py:37-45 | a hidden file such as `dir/.png` has no suffix and is sent as JPEG |
| MediaTypes.Examples | test_vision_poc.py:38-45 | `.JPG` and `.Jpeg` give JPEG, `.PNG` gives PNG, `.tiff` and no suffix give JPEG |
| MediaTypes.SampleMediaType | test_vision_poc.py:37-45 | `sample.png` is sent as PNG |
| Fences.Slice | test_vision_poc.py:189 | Python's `s[lo:hi]`: empty when the start is not below the end or lies past the string, exactly `s[lo..hi]` when both bounds lie within it, the rest of the string from `lo` when `hi` runs past its end |
| Fences.Unfence | test_vision_poc.py:187-189 | the stripped slice after the opening marker is empty or part of the reply, and has no whitespace at either end |
| Fences.StripFence | test_vision_poc.py:186-193 | an unfenced reply is handed on unchanged; a fenced one gives a part of the reply at least a fence shorter than it, with no whitespace at either end |
| Fences.MarkersOfWrapped | test_vision_poc.py:187-188 | when no backtick precedes the opening marker or follows the closing fence, whatever the body holds, `find` sees the written opening marker and `rfind` the written closing fence |
| Fences.JsonFenceRoundTrip | test_vision_poc.py:186-189 | a body wrapped in a `json`-tagged fence comes back stripped, when no backtick precedes the opening marker or follows the closing fence (the body itself may hold fences) |
| Fences.PlainFenceRoundTrip | test_vision_poc.py:190-193 | a body wrapped in a bare fence, with no `json`-tagged fence in the reply, comes back stripped, when no backtick precedes the opening fence or follows the closing one (the body itself may hold fences) |
| Fences.LoneFenceIsEmpty | test_vision_poc.py:186-193 | a reply with exactly one fence marker gives an empty payload |
| Fences.ExampleBodyStrips | test_vision_poc.py:189 | the fenced example's body strips to `{"a":1}` |
| Fences.ExampleReply | test_vision_poc.py:186-189 | the fenced example reply is handed to the parser as `{"a":1}` |
| Fences.EmbeddedFenceReply | test_vision_poc.py:186-189 | a reply whose JSON itself holds fences, ```` ```json\n{"n":"```x```"}\n``` ````, is handed to the parser as `{"n":"```x```"}`: the first marker and the last fence are the outer ones |
| Fences.ExtractAsWritten | test_vision_poc.py:186-203 | as written: the parser sees the stripped payload, and a parse failure prints that payload as the raw response |
| Fences.Extract | test_vision_poc.py:186-203 | as intended: the value is parsed from the stripped payload, and a parse failure shows the reply as received |
| Fences.AsWrittenHidesFencedReply | test_vision_poc.py:200-203 | as written, a fenced reply that fails to parse is never shown as received; the corrected version shows it |
| Fences.ExtractAgreesWithAsWritten | test_vision_poc.py:195-203 | the two versions agree when the payload parses and when the reply has no fence |
| Report.Show | test_vision_poc.py:218-274 | how an f-string shows a present value (`None`, `True`/`False`, `str(int)`, the float's text, the string): a shown integer reads back as the integer, with a leading `-` when negative |
| Report.Digits | test_vision_poc.py:240 | `str(n)` is non-empty, all decimal digits, and starts with `0` only for zero |
| Report.DigitsRoundTrip | test_vision_poc.py:240 | reading the printed digits back gives the number |
| Report.Percent | test_vision_poc.py:232 | formatting a confidence fails exactly for `null` (TypeError), for a string (ValueError) and for an integer too large to convert to a double (OverflowError); an absent confidence formats as `0%` |
| Report.PercentErrors | test_vision_poc.py:232 | `null` raises TypeError, a string ValueError, and an integer too large for a double OverflowError, each exactly in its case |
| Report.HugeConfidence | test_vision_poc.py:232 | the integers that format end just below 2^1024 - 2^970 in magnitude, on both signs; that bound itself raises OverflowError |
| Report.PieceText | test_vision_poc.py:232 | a printed piece starts with its fixed prefix |
| Report.ItemPieces | test_vision_poc.py:226-232 | an item prints its kind's number of lines, the confidence line last and only that one formatted; the text of each line is pinned down by `Report.AbsentIsNA`, `Report.AbsentQuantityIsZero`, `Report.EmptyItem` and `Report.NullFieldShowsNone` |
| Report.ItemPrintable | test_vision_poc.py:232 | an item's lines print without an exception exactly when its confidence formats |
| Report.ItemsPieces | test_vision_poc.py:226-232 | a list prints one block per item and prints without an exception exactly when every item's confidence formats |
| Report.ItemsConcat | test_vision_poc.py:226 | the blocks of two lists joined are the blocks of the joined list |
| Report.ItemOrder | test_vision_poc.py:226-232 | item `i`'s block follows the blocks of the items before it and precedes those of the items after it |
| Report.Bullets | test_vision_poc.py:273-274 | one plain bullet line per note |
| Report.TitleInjective | test_vision_poc.py:224-260 | no two sections share a title |
| Report.Render | test_vision_poc.py:208-275 | `print_bom` itself: the laid-out report printed until a confidence fails to format. It has no contract of its own; `Report.RenderCompletesIff`, `Report.ReportFrame` and `Report.ExecuteStopsAt` state what it prints |
| Report.Execute | test_vision_poc.py:208-275 | printing runs to the end exactly when every piece formats; otherwise it stops at the first piece that raises, with that piece's exception; every printed line is its piece's text |
| Report.SectionPrintable | test_vision_poc.py:222-232 | a section prints without an exception exactly when it is skipped or every item confidence in it formats |
| Report.ClosingPrintable | test_vision_poc.py:269-275 | the closing block prints without an exception exactly when the overall confidence formats |
| Report.TemplatePrintable | test_vision_poc.py:211-275 | every piece of the report formats exactly when the overall and listed item confidences do |
| Report.RenderCompletesIff | test_vision_poc.py:208-275 | the report is printed to its end exactly when no overall or listed item confidence is `null`, a string or an integer too large for a double |
| Report.TemplatePlaced | test_vision_poc.py:211-275 | every piece of the report is ordinary text or the title of a section that is listed |
| Report.HeaderShownIff | test_vision_poc.py:222-260 | in a report printed to its end (no confidence fails to format), each of the PIPES, FITTINGS, VALVES and FLANGES headers is printed exactly when its key is present with a non-empty list |
| Report.RenderLines | test_vision_poc.py:208-275 | a completed report prints exactly one line per laid-out piece, each line that piece's text |
| Report.TemplateLength | test_vision_poc.py:211-275 | the laid-out report (what is printed when no confidence fails to format) has 3 banner lines, 2 drawing lines if present, 3 plus the item lines per listed section, and 3 closing lines plus the notes block |
| Report.BannerLines | test_vision_poc.py:211-213 | every completed report opens with a rule, the title and a rule |
| Report.OverallLine | test_vision_poc.py:270 | in a report printed to its end (no confidence fails to format), the overall confidence line is printed just before the notes block |
| Report.ClosingRules | test_vision_poc.py:269-275 | in a report printed to its end (no confidence fails to format), the double rule before the overall line and the closing rule are printed |
| Report.ReportFrame | test_vision_poc.py:211-275 | a completed report has the predicted length, opens with the banner, and closes with a rule, the overall confidence, the notes block and a rule |
| Report.NotesShown | test_vision_poc.py:271-274 | in a report printed to its end, with notes, the notes header and one bullet per note, in order, come just before the closing rule |
| Report.NotesShownIff | test_vision_poc.py:270-274 | in a report printed to its end (no confidence fails to format), the overall line comes right before the closing rule exactly when there are no notes to print |
| Report.DrawingShownIff | test_vision_poc.py:216-219 | in a report printed to its end, the drawing header follows the banner exactly when the `drawing` key is present |
| Report.MissingLength | test_vision_poc.py:231 | a pipe without `length_ft` prints `N/A ft` |
| Report.MissingQuantity | test_vision_poc.py:240 | a fitting, valve or flange without `quantity` prints a count of `0` |
| Report.NullFieldShowsNone | test_vision_poc.py:228 | a `null` text field prints `None`, not `N/A`: `{"size": "4\"", "schedule": null}` prints `  Size: 4" None` |
| Report.MissingConfidence | test_vision_poc.py:232 | an item without `confidence` prints `0%` |
| Report.EmptyItem | test_vision_poc.py:226-266 | an item object with none of its keys prints `N/A` in every text field, a count of `0` (fittings, valves, flanges) and a confidence of `0%`, line for line |
| Report.EmptyDrawing | test_vision_poc.py:216-219 | a `drawing` object with none of its keys prints `N/A` for number, title, scale and revision |
| Report.AbsentIsNA | test_vision_poc.py:226-266 | a missing text field of an item prints exactly as the string `N/A` stored under that key would, in every kind of item |
| Report.AbsentQuantityIsZero | test_vision_poc.py:240-264 | a missing quantity prints exactly as the integer `0` would |
| Report.AbsentDrawingIsNA | test_vision_poc.py:216-219 | a missing field of the drawing prints exactly as the string `N/A` stored under that key would |
| Report.EmptyReplyReport | test_vision_poc.py:208-275 | a reply with none of the keys still prints the banner, an overall confidence of `0%` and the closing rules |
| Report.SampleTemplate | test_vision_poc.py:208-275 | the sample reply with all lists empty lays out no section |
| Report.SampleReport | test_vision_poc.py:208-275 | the sample reply prints the drawing lines, `Overall Confidence: 80%` and the bullet `ok` |
| Report.ExecuteStopsAt | test_vision_poc.py:208-275 | when the first piece that raises follows some printed texts, exactly those texts are printed, with that piece's exception |
| Report.NullConfidenceStops | test_vision_poc.py:270 | as written, a reply whose overall confidence is `null` prints the banner and the double rule, then raises TypeError: the closing rule is never printed |
| Report.RenderTolerant | test_vision_poc.py:232-270 | as intended: with `null` confidences read as absent, the report is printed to its end exactly when every confidence is `null` or formattable |
| Report.ClearedPrintable | test_vision_poc.py:232-270 | after `null` confidences are read as absent, every confidence formats exactly when each was `null` or formattable |
| Report.TolerantAgrees | test_vision_poc.py:208-275 | a reply without a `null` confidence prints the same in both versions |
| Report.NullConfidenceTolerated | test_vision_poc.py:270 | the reply that stops as written prints to its end, with `Overall Confidence: 0%` |

## Left out

- The API key check, `.env` loading, the client call and its catch-all error branch (lines 19-22, 152-182, 204-206, 281-285). These are configuration and network I/O.
- Reading and base64-encoding the image, the existence check, and writing the JSON file (lines 24-27, 33-34, 48, 306-307). These are file I/O. The `FileNotFoundError` raised at line 34 is outside the `try` and is not modelled.
- `json.loads` and `json.dump`. The parser is a parameter of `Fences.Extract`. The JSON round trip of the saved file is library behaviour and is not stated.
- The prompt text, the status lines, `sys.argv` handling and the exit codes (lines 51-150, 154-155, 197, 288-311). `main` tests the parsed reply with `if result:`, so a reply that parses to an empty object is reported as a failed extraction. That branch is not modelled.
- Floating-point numbers. A float is carried as the two texts Python prints for it, `str(x)` and `format(x, '.0%')`. Rounding is not modelled.
- Report.Percent: for an integer confidence that converts to a double, the model prints 100 times the integer exactly. Python multiplies the double by 100 in floating point, so the digits differ once 100 times the integer exceeds 2^53 in magnitude (for 2^53 - 1 Python prints `900719925474099072%`, the model `900719925474099100%`), and from about 1.8·10^306 up to the overflow bound the product is infinite and Python prints `inf%`. The OverflowError from 2^1024 - 2^970 on is modelled.
- Parsed replies whose shape differs from the schema: a `drawing` that is not an object (Python raises `AttributeError`), a section that is not a list, items that are not objects, and nested arrays or objects inside item fields or notes. The model's reply type only admits objects with scalar values and lists of them.
- Windows paths. `Path` is modelled as `PurePosixPath`.
- Python 3.14's `suffix`, which also treats a trailing dot as a suffix. The model follows Python 3.13 and earlier.
- `str.lower` beyond ASCII. See the note at the top.
- Python's `print` writes a newline after each call. A report line is the text of one `print` call, and may itself begin with `\n`.
- `print_bom` raises at lines 232, 243, 255, 266 or 270 on a `null` confidence (TypeError), a string confidence (ValueError) or an integer one too large for a double (OverflowError). `Report.Execute` returns the lines printed before the exception, together with the exception. The exception is not caught: `main` calls `print_bom` at line 302, outside any `try`, so the script ends with a traceback before line 305. That is not modelled.
- On a parse failure, lines 189, 193 and 202 print the stripped payload as the "raw response", not the reply as received. `Fences.ExtractAsWritten` models this; see Findings.
- A `null` drawing makes line 218 raise AttributeError. The model's `drawing` is an object or absent, so this case, and its correction, are not modelled.

## Findings

| source | as written | input that shows it | evidently intended | confidence | as-written member | corrected member |
|---|---|---|---|---|---|---|
| test_vision_poc.py:189-202 | lines 189 and 193 overwrite `response_text` with the stripped payload, and line 202 prints that variable under "Raw response:" | the reply ```` ```json\n{"a":}\n``` ```` fails to parse and is shown as `{"a":}`, without its fence | the reply as received is shown, so the payload that failed can be diagnosed | medium, not executed | Fences.ExtractAsWritten | Fences.Extract |
| test_vision_poc.py:232-270 | confidences are formatted with `:.0%` after `.get(key, 0)`, which defaults only a missing key | `{"overall_confidence": null}`, which the prompt at line 149 asks for when information is missing, raises TypeError at line 270 after the extraction succeeded, so the JSON file at lines 305-307 is never written | a `null` confidence is shown like a missing one, as `0%`, and the report completes | medium, not executed | Report.NullConfidenceStops | Report.RenderTolerant |

=== FILE: fences.dfy ===
/** How `extract_pipe_specs` turns the model's reply into the text handed to
    `json.loads`, and what it reports when that text does not parse. */
module Fences {
  import opened Wrappers
  import opened Text

  /** A generic markdown code fence. */
  const Fence := "```"

  /** A code fence tagged as JSON. */
  const JsonFence := "```json"

  /** Python's `s[lo:hi]` for non-negative bounds: both are clamped to the
      string, and the slice is empty when `lo` is not below `hi`. */
  function Slice(s: string, lo: nat, hi: nat): (r: string)
    ensures r == [] || OccursAt(s, r, lo)
    ensures lo < hi <= |s| ==> |r| == hi - lo
    ensures hi <= lo ==> r == []
    ensures lo <= hi <= |s| ==> r == s[lo..hi]
    ensures lo <= |s| <= hi ==> r == s[lo..]
  {
    var l := if lo < |s| then lo else |s|;
    var h := if hi < |s| then hi else |s|;
    if l < h then s[l..h] else []
  }

  /** Everything from `start` up to the last fence, stripped of whitespace. */
  function Unfence(text: string, start: nat): (payload: string)
    requires Contains(text, Fence)
    ensures payload == [] || (start + |payload| <= |text| && Contains(text, payload))
    ensures payload == [] || (!IsSpace(payload[0]) && !IsSpace(payload[|payload| - 1]))
  {
    var body := Slice(text, start, RFind(text, Fence));
    var payload := Strip(body);
    assert payload == [] || (start + |payload| <= |text| && Contains(text, payload)) by {
      if payload != [] {
        var i :| StrippedAt(body, payload, i);
        OccursWithin(text, body, start, payload, i);
      }
    }
    payload
  }

  /** Lines 186-193: prefer a JSON-tagged fence, otherwise any fence, and
      keep what lies between the first opening marker and the last fence;
      text without a fence is passed on unchanged. */
  function StripFence(text: string): (payload: string)
    ensures !Contains(text, Fence) ==> payload == text
    ensures Contains(text, payload)
    ensures Contains(text, Fence) ==> |payload| + |Fence| <= |text|
    ensures Contains(text, Fence) ==>
              payload == [] || (!IsSpace(payload[0]) && !IsSpace(payload[|payload| - 1]))
  {
    assert OccursAt(text, text, 0);
    assert OccursAt(text, [], 0);
    var j := Find(text, JsonFence);
    if j != -1 then
      assert OccursAt(text, Fence, j) by {
        assert text[j..j + |Fence|] == text[j..j + |JsonFence|][..|Fence|];
      }
      Unfence(text, j + |JsonFence|)
    else if Find(text, Fence) != -1 then
      Unfence(text, Find(text, Fence) + |Fence|)
    else
      text
  }

  /** A reply made of text, an opening marker, a body, a closing fence and
      more text. */
  function Wrapped(pre: string, open: string, body: string, post: string): string {
    pre + open + body + Fence + post
  }

  /** Where the text before the opening marker has no backtick, `find`
      sees that marker. */
  lemma OpeningOfWrapped(pre: string, open: string, body: string, post: string)
    requires open == JsonFence || open == Fence
    requires '`' !in pre
    ensures Find(Wrapped(pre, open, body, post), open) == |pre|
  {
    var text := Wrapped(pre, open, body, post);
    assert text[|pre|..|pre| + |open|] == open;
    assert forall k :: 0 <= k < |pre| ==> text[k] == pre[k];
    FindIs(text, open, |pre|);
  }

  /** Where the text after the closing fence has no backtick, `rfind` sees
      that fence. */
  lemma ClosingOfWrapped(pre: string, open: string, body: string, post: string)
    requires '`' !in post
    ensures RFind(Wrapped(pre, open, body, post), Fence) == |pre| + |open| + |body|
  {
    var text := Wrapped(pre, open, body, post);
    var e := |pre| + |open| + |body|;
    assert text[e..e + |Fence|] == Fence;
    assert forall k :: e + |Fence| <= k < |text| ==> text[k] == post[k - e - |Fence|];
    RFindIs(text, Fence, e);
  }

  /** Where the text before the opening marker and after the closing fence
      has no backtick, the first marker and the last fence are the two that
      were written, whatever the body holds. */
  lemma MarkersOfWrapped(pre: string, open: string, body: string, post: string)
    requires open == JsonFence || open == Fence
    requires '`' !in pre && '`' !in post
    ensures Find(Wrapped(pre, open, body, post), open) == |pre|
    ensures RFind(Wrapped(pre, open, body, post), Fence) == |pre| + |open| + |body|
    ensures Wrapped(pre, open, body, post)[|pre| + |open|..|pre| + |open| + |body|] == body
  {
    OpeningOfWrapped(pre, open, body, post);
    ClosingOfWrapped(pre, open, body, post);
  }

  /** Fencing a body with a JSON-tagged fence and stripping the fence gives
      back the body without its surrounding whitespace. */
  lemma JsonFenceRoundTrip(pre: string, body: string, post: string)
    requires '`' !in pre && '`' !in post
    ensures StripFence(Wrapped(pre, JsonFence, body, post)) == Strip(body)
  {
    var text := Wrapped(pre, JsonFence, body, post);
    MarkersOfWrapped(pre, JsonFence, body, post);
    var start := |pre| + |JsonFence|;
    assert StripFence(text) == Unfence(text, start);
    assert Slice(text, start, RFind(text, Fence)) == body;
  }

  /** The same for a generic fence, when the reply has no JSON-tagged fence. */
  lemma PlainFenceRoundTrip(pre: string, body: string, post: string)
    requires '`' !in pre && '`' !in post
    requires !Contains(Wrapped(pre, Fence, body, post), JsonFence)
    ensures StripFence(Wrapped(pre, Fence, body, post)) == Strip(body)
  {
    var text := Wrapped(pre, Fence, body, post);
    MarkersOfWrapped(pre, Fence, body, post);
    var start := |pre| + |Fence|;
    assert Find(text, JsonFence) == -1;
    assert StripFence(text) == Unfence(text, start);
    assert Slice(text, start, RFind(text, Fence)) == body;
  }

  /** With a single fence in the reply, the opening marker is also the last
      fence, the slice runs backwards and the payload is empty. */
  lemma LoneFenceIsEmpty(text: string, i: int)
    requires OccursAt(text, Fence, i)
    requires forall j :: OccursAt(text, Fence, j) ==> j == i
    ensures StripFence(text) == []
  {
    var j := Find(text, JsonFence);
    if j != -1 {
      assert OccursAt(text, Fence, j) by {
        assert text[j..j + |Fence|] == text[j..j + |JsonFence|][..|Fence|];
      }
    }
  }

  /** The body of the example reply strips to the bare object. */
  lemma ExampleBodyStrips()
    ensures Strip("\n{\"a\":1}\n") == "{\"a\":1}"
  {
    var body := "\n{\"a\":1}\n";
    assert StrippedAt(body, "{\"a\":1}", 1) by {
      assert body[..1] == "\n";
      assert body[8..] == "\n";
      assert body[1..8] == "{\"a\":1}";
    }
    StripUnique(body, "{\"a\":1}", 1);
  }

  /** A JSON-fenced example reply decodes to the bare object. */
  lemma ExampleReply()
    ensures StripFence("```json\n{\"a\":1}\n```") == "{\"a\":1}"
  {
    var body := "\n{\"a\":1}\n";
    assert "```json\n{\"a\":1}\n```" == Wrapped("", JsonFence, body, "");
    JsonFenceRoundTrip("", body, "");
    ExampleBodyStrips();
  }

  /** The body of a reply whose JSON holds fences strips to that JSON. */
  lemma EmbeddedBodyStrips()
    ensures Strip("\n{\"n\":\"```x```\"}\n") == "{\"n\":\"```x```\"}"
  {
    var inner := "{\"n\":\"```x```\"}";
    var body := "\n{\"n\":\"```x```\"}\n";
    assert StrippedAt(body, inner, 1) by {
      assert body[..1] == "\n";
      assert body[16..] == "\n";
      assert body[1..16] == inner;
    }
    StripUnique(body, inner, 1);
  }

  lemma EmbeddedReplyShape()
    ensures "```json\n{\"n\":\"```x```\"}\n```" == Wrapped("", JsonFence, "\n{\"n\":\"```x```\"}\n", "")
  {
  }

  /** A body that itself holds fences survives: the first marker and the
      last fence are still the outer ones. */
  lemma EmbeddedFenceReply()
    ensures StripFence("```json\n{\"n\":\"```x```\"}\n```") == "{\"n\":\"```x```\"}"
  {
    EmbeddedReplyShape();
    JsonFenceRoundTrip("", "\n{\"n\":\"```x```\"}\n", "");
    EmbeddedBodyStrips();
  }

  /** What extraction hands back: the parsed value, or a parse failure with
      the text shown to the user after "Raw response:". */
  datatype Outcome<T> = Parsed(value: T) | ParseFailed(shown: string)

  /** Lines 186-203 as written: on a parse failure the variable printed as
      the raw response has already been replaced by the stripped payload. */
  function ExtractAsWritten<T>(reply: string, parse: string -> Option<T>): (r: Outcome<T>)
    ensures r.Parsed? <==> parse(StripFence(reply)).Some?
    ensures r.ParseFailed? ==> r.shown == StripFence(reply)
  {
    var payload := StripFence(reply);
    match parse(payload)
    case Some(v) => Parsed(v)
    case None => ParseFailed(payload)
  }

  /** Extraction as the report of a parse failure intends it: the value is
      parsed from the stripped payload, and a failure shows the reply itself. */
  function Extract<T>(reply: string, parse: string -> Option<T>): (r: Outcome<T>)
    ensures r.Parsed? <==> parse(StripFence(reply)).Some?
    ensures r.Parsed? ==> Some(r.value) == parse(StripFence(reply))
    ensures r.ParseFailed? ==> r.shown == reply
  {
    match parse(StripFence(reply))
    case Some(v) => Parsed(v)
    case None => ParseFailed(reply)
  }

  /** As written, a fenced reply that does not parse is never shown as it
      was received: at least the fence is missing from what is printed. */
  lemma AsWrittenHidesFencedReply<T>(reply: string, parse: string -> Option<T>)
    requires Contains(reply, Fence)
    requires parse(StripFence(reply)).None?
    ensures ExtractAsWritten(reply, parse).shown != reply
    ensures Extract(reply, parse).shown == reply
  {
  }

  /** The two agree whenever the reply parses, and on an unfenced reply. */
  lemma ExtractAgreesWithAsWritten<T>(reply: string, parse: string -> Option<T>)
    requires parse(StripFence(reply)).Some? || !Contains(reply, Fence)
    ensures Extract(reply, parse) == ExtractAsWritten(reply, parse)
  {
  }
}

=== FILE: media_types.dfy ===
/** The media type `extract_pipe_specs` declares for the uploaded image,
    chosen from the lower-cased file suffix with JPEG as the fallback. */
module MediaTypes {
  import opened Text
  import opened Paths

  datatype MediaType = Jpeg | Png | Gif | Webp {

    /** The label sent as `media_type` in the request. */
    function Label(): (s: string)
      ensures s in {"image/jpeg", "image/png", "image/gif", "image/webp"}
    {
      match this
      case Jpeg => "image/jpeg"
      case Png => "image/png"
      case Gif => "image/gif"
      case Webp => "image/webp"
    }
  }

  /** `media_type_map`: the five recognised suffixes. */
  const Known: map<string, MediaType> :=
    map[".jpg" := Jpeg, ".jpeg" := Jpeg, ".png" := Png, ".gif" := Gif, ".webp" := Webp]

  /** `media_type_map.get(ext, "image/jpeg")` for an already lower-cased `ext`. */
  function ForSuffix(ext: string): (m: MediaType)
    ensures m == Png <==> ext == ".png"
    ensures m == Gif <==> ext == ".gif"
    ensures m == Webp <==> ext == ".webp"
    ensures m == Jpeg <==> ext !in {".png", ".gif", ".webp"}
  {
    if ext in Known then Known[ext] else Jpeg
  }

  /** The media type of the image at `path`: the suffix of its final
      component, lower-cased, looked up in `Known`. */
  function ForPath(path: string): (m: MediaType)
    ensures m == Png <==> Lower(Suffix(Name(path))) == ".png"
    ensures m == Gif <==> Lower(Suffix(Name(path))) == ".gif"
    ensures m == Webp <==> Lower(Suffix(Name(path))) == ".webp"
  {
    ForSuffix(Lower(Suffix(Name(path))))
  }

  /** No two media types share a label. */
  lemma LabelInjective(a: MediaType, b: MediaType)
    requires a.Label() == b.Label()
    ensures a == b
  {
  }

  /** The choice ignores letter case anywhere in the path. */
  lemma ForPathIgnoresCase(path: string)
    ensures ForPath(Lower(path)) == ForPath(path)
  {
    NameLower(path);
    SuffixLower(Name(path));
    LowerIdempotent(Suffix(Name(path)));
  }

  /** `dir/base.ext` gets the type its extension names, whatever its case. */
  lemma ForPathOfFile(dir: string, base: string, ext: string)
    requires base != [] && '/' !in base
    requires ext != [] && '/' !in ext && '.' !in ext
    ensures ForPath(dir + "/" + base + "." + ext) == ForSuffix(Lower("." + ext))
  {
    var n := base + "." + ext;
    assert dir + "/" + base + "." + ext == dir + "/" + n;
    NameOfJoin(dir, n);
    SplitExtension(base, ext);
  }

  /** A hidden file such as `.png` has no suffix, so it is sent as JPEG. */
  lemma HiddenFileIsJpeg(dir: string, ext: string)
    requires ext != [] && '/' !in ext && '.' !in ext
    ensures ForPath(dir + "/" + "." + ext) == Jpeg
  {
    var n := "." + ext;
    assert dir + "/" + "." + ext == dir + "/" + n;
    NameOfJoin(dir, n);
    LeadingDotIsNotSuffix(ext);
  }

  /** Both JPEG spellings, in any case, and an upper-case PNG. */
  lemma Examples()
    ensures ForSuffix(Lower(".JPG")) == Jpeg
    ensures ForSuffix(Lower(".Jpeg")) == Jpeg
    ensures ForSuffix(Lower(".PNG")) == Png
    ensures ForSuffix(Lower(".tiff")) == Jpeg
    ensures ForSuffix(Lower("")) == Jpeg
  {
    assert Lower(".JPG") == ".jpg";
    assert Lower(".Jpeg") == ".jpeg";
    assert Lower(".PNG") == ".png";
  }

  /** A bare `base.ext` gets the type its extension names. */
  lemma ForPathOfBare(base: string, ext: string)
    requires base != [] && '/' !in base
    requires ext != [] && '/' !in ext && '.' !in ext
    ensures ForPath(base + "." + ext) == ForSuffix(Lower("." + ext))
  {
    var n := base + "." + ext;
    NameOfBare(n);
    SplitExtension(base, ext);
  }

  /** `sample.png` is sent as PNG. */
  lemma SampleMediaType()
    ensures ForPath("sample.png") == Png
  {
    calc {
      ForPath("sample.png");
      { SampleSpelling(); }
      ForPath("sample" + "." + "png");
      { ForPathOfBare("sample", "png"); }
      ForSuffix(Lower("." + "png"));
      { LowerPng(); }
      ForSuffix(".png");
    }
  }

  lemma LowerPng()
    ensures Lower("." + "png") == ".png"
  {
  }
}

=== FILE: paths.dfy ===
/** The part of `pathlib.PurePosixPath` the script uses: the final component
    (`name`), its extension (`suffix`) and the rest (`stem`), and the output
    file name `main` derives from the input path. */
module Paths {
  import opened Text

  /** The final component of a POSIX path: the last `/`-separated segment that
      is neither empty nor `.`; `""` when there is none (`""`, `.`, `/`). */
  function Name(path: string): (name: string)
    decreases |path|
    ensures '/' !in name
    ensures name != "."
    ensures name == [] || Contains(path, name)
  {
    var k := RFind(path, "/");
    var last := path[k + 1..];
    if last != "" && last != "." then
      assert '/' !in last by {
        forall j | k < j < |path| ensures path[j] != '/' {
          OccursAtChar(path, '/', j);
        }
      }
      assert OccursAt(path, last, k + 1);
      last
    else if k < 0 then
      ""
    else
      var name := Name(path[..k]);
      assert name == [] || Contains(path, name) by {
        if name != [] {
          var i :| OccursAt(path[..k], name, i);
          assert OccursAt(path, name, i);
        }
      }
      name
  }

  /** A path with no `/` is its own final component. */
  lemma NameOfBare(n: string)
    requires '/' !in n && n != "."
    ensures Name(n) == n
  {
    assert !Contains(n, "/") by {
      forall i ensures !OccursAt(n, "/", i) { OccursAtChar(n, '/', i); }
    }
  }

  /** The directory part is dropped: joining a directory and a component
      gives back that component. */
  lemma NameOfJoin(dir: string, n: string)
    requires '/' !in n && n != "" && n != "."
    ensures Name(dir + "/" + n) == n
  {
    var p := dir + "/" + n;
    OccursAtChar(p, '/', |dir|);
    RFindIs(p, "/", |dir|);
    assert p[|dir| + 1..] == n;
  }

  /** A trailing separator does not change the final component. */
  lemma NameTrailingSlash(path: string)
    ensures Name(path + "/") == Name(path)
  {
    var p := path + "/";
    OccursAtChar(p, '/', |path|);
    RFindIs(p, "/", |path|);
    assert p[..|path|] == path;
  }

  /** `rfind` of a non-letter character is blind to letter case. */
  lemma RFindLower(s: string, c: char)
    requires !('A' <= c <= 'Z') && !('a' <= c <= 'z')
    ensures RFind(Lower(s), [c]) == RFind(s, [c])
  {
    forall i ensures OccursAt(Lower(s), [c], i) <==> OccursAt(s, [c], i) {
      LowerKeepsOccurrences(s, c, i);
    }
    RFindSameOccurrences(Lower(s), s, [c]);
  }

  /** Lower-casing neither creates nor removes the empty and `.` segments. */
  lemma LowerSegment(x: string)
    ensures Lower(x) == "" <==> x == ""
    ensures Lower(x) == "." <==> x == "."
  {
    if Lower(x) == "." { assert LowerChar(x[0]) == '.'; }
  }

  /** Lower-casing a path keeps its last `/` and lower-cases both sides of it. */
  lemma LowerAroundSlash(path: string)
    ensures RFind(Lower(path), "/") == RFind(path, "/")
    ensures var k := RFind(path, "/");
            && Lower(path)[k + 1..] == Lower(path[k + 1..])
            && (k >= 0 ==> Lower(path)[..k] == Lower(path[..k]))
  {
    RFindLower(path, '/');
    var k := RFind(path, "/");
    LowerSlice(path, k + 1, |path|);
    if k >= 0 {
      LowerSlice(path, 0, k);
    }
  }

  /** Lower-casing a path lower-cases its final component and nothing else. */
  lemma {:induction false} NameLower(path: string)
    decreases |path|
    ensures Name(Lower(path)) == Lower(Name(path))
  {
    LowerAroundSlash(path);
    var k := RFind(path, "/");
    var last := path[k + 1..];
    LowerSegment(last);
    if k >= 0 && (last == "" || last == ".") {
      NameLower(path[..k]);
    }
  }

  /** Python's `PurePath.suffix` applied to a final component: from the last
      `.` onwards, provided that dot is neither the first nor the last
      character (Python 3.13 and earlier). */
  function Suffix(name: string): (ext: string)
    ensures ext == [] || (ext[0] == '.' && |ext| >= 2 && '.' !in ext[1..])
    ensures EndsWith(name, ext)
  {
    var i := RFind(name, ".");
    if 0 < i < |name| - 1 then
      assert '.' !in name[i + 1..] by {
        forall j | i < j < |name| ensures name[j] != '.' {
          OccursAtChar(name, '.', j);
        }
      }
      OccursAtChar(name, '.', i);
      assert name[i..][1..] == name[i + 1..];
      name[i..]
    else
      ""
  }

  /** Python's `PurePath.stem`: the final component without its suffix. */
  function Stem(name: string): (stem: string)
    ensures StartsWith(name, stem)
  {
    var i := RFind(name, ".");
    if 0 < i < |name| - 1 then name[..i] else name
  }

  /** Every component splits into its stem followed by its suffix, and a
      component with a suffix has a non-empty stem. */
  lemma StemSuffixSplit(name: string)
    ensures Stem(name) + Suffix(name) == name
    ensures Suffix(name) != [] ==> Stem(name) != []
  {
  }

  /** A base name and an extension joined by a dot split back into the two. */
  lemma SplitExtension(base: string, ext: string)
    requires base != [] && ext != [] && '.' !in ext
    ensures Suffix(base + "." + ext) == "." + ext
    ensures Stem(base + "." + ext) == base
  {
    var n := base + "." + ext;
    OccursAtChar(n, '.', |base|);
    RFindIs(n, ".", |base|);
    assert n[|base|..] == "." + ext;
    assert n[..|base|] == base;
  }

  /** A component whose only dot is its first character (`.png`) has no suffix. */
  lemma LeadingDotIsNotSuffix(ext: string)
    requires '.' !in ext
    ensures Suffix("." + ext) == []
    ensures Stem("." + ext) == "." + ext
  {
    var n := "." + ext;
    OccursAtChar(n, '.', 0);
    RFindIs(n, ".", 0);
  }

  /** Lower-casing a component lower-cases its suffix. */
  lemma SuffixLower(name: string)
    ensures Suffix(Lower(name)) == Lower(Suffix(name))
  {
    RFindLower(name, '.');
    var i := RFind(name, ".");
    if 0 < i < |name| - 1 {
      LowerSlice(name, i, |name|);
    }
  }

  /** What `main` appends to the stem of the input path. */
  const OutputTail := "_extracted.json"

  /** `Path(image_path).stem + "_extracted.json"`: the JSON file is written to
      the working directory under the input's stem. */
  function OutputName(path: string): (file: string)
    ensures EndsWith(file, OutputTail)
    ensures '/' !in file
    ensures file[..|file| - |OutputTail|] + Suffix(Name(path)) == Name(path)
  {
    var stem := Stem(Name(path));
    StemSuffixSplit(Name(path));
    assert (stem + OutputTail)[..|stem|] == stem;
    stem + OutputTail
  }

  /** `dir/base.ext` is saved as `base_extracted.json`. */
  lemma OutputNameOfJoin(dir: string, base: string, ext: string)
    requires base != [] && '/' !in base
    requires ext != [] && '/' !in ext && '.' !in ext
    ensures OutputName(dir + "/" + base + "." + ext) == base + OutputTail
  {
    var n := base + "." + ext;
    assert dir + "/" + base + "." + ext == dir + "/" + n;
    NameOfJoin(dir, n);
    SplitExtension(base, ext);
  }

  /** A bare `base.ext` in the working directory is saved as
      `base_extracted.json`. */
  lemma OutputNameOfBare(base: string, ext: string)
    requires base != [] && '/' !in base
    requires ext != [] && '/' !in ext && '.' !in ext
    ensures OutputName(base + "." + ext) == base + OutputTail
  {
    var n := base + "." + ext;
    NameOfBare(n);
    SplitExtension(base, ext);
  }

  /** `sample.png` is saved as `sample_extracted.json`. */
  lemma SampleOutputName()
    ensures OutputName("sample.png") == "sample_extracted.json"
  {
    SampleSpelling();
    OutputNameOfBare("sample", "png");
    SampleTail();
  }

  lemma SampleSpelling()
    ensures "sample" + "." + "png" == "sample.png"
  {
  }

  lemma SampleTail()
    ensures "sample" + OutputTail == "sample_extracted.json"
  {
  }
}

=== FILE: report.dfy ===
/** `print_bom`: the bill-of-materials report printed for a parsed reply.
    The report is first laid out as a sequence of pieces, one per `print`
    call, and then printed in order; printing stops at the first piece whose
    percentage cannot be formatted, as the Python exception would stop it. */
module Report {
  import opened Wrappers
  import opened Text

  /** A JSON number with a fraction or an exponent, which `json.loads` turns
      into a float. Floating-point formatting is not modelled: the value
      carries the two texts Python prints for it, `str(x)` and
      `format(x, '.0%')`. */
  datatype Float = Float(text: string, percent: string)

  /** A JSON scalar as `json.loads` returns it. */
  datatype Scalar = Null | Bool(b: bool) | Int(i: int) | Real(x: Float) | Str(s: string)

  /** A JSON object with scalar values: the drawing and each item. */
  type Fields = map<string, Scalar>

  /** The parsed reply, through the keys the report reads. */
  datatype Extracted = Extracted(
    drawing: Option<Fields>,
    pipes: Option<seq<Fields>>,
    fittings: Option<seq<Fields>>,
    valves: Option<seq<Fields>>,
    flanges: Option<seq<Fields>>,
    overallConfidence: Option<Scalar>,
    notes: Option<seq<Scalar>>)

  /** The placeholder for an absent text field. */
  const NA := "N/A"

  function DigitChar(d: nat): char
    requires d < 10
  {
    (d + '0' as int) as char
  }

  function DigitValue(c: char): nat {
    if '0' <= c <= '9' then c as int - '0' as int else 0
  }

  /** `str(n)` for a non-negative integer: its decimal digits. */
  function Digits(n: nat): (r: string)
    ensures |r| > 0
    ensures forall i :: 0 <= i < |r| ==> '0' <= r[i] <= '9'
    ensures r[0] == '0' <==> n == 0
  {
    if n < 10 then [DigitChar(n)] else Digits(n / 10) + [DigitChar(n % 10)]
  }

  /** The number a string of decimal digits denotes. */
  function DecimalValue(s: string): nat {
    if |s| == 0 then 0 else 10 * DecimalValue(s[..|s| - 1]) + DigitValue(s[|s| - 1])
  }

  /** Reading the printed digits back gives the number. */
  lemma {:induction false} DigitsRoundTrip(n: nat)
    ensures DecimalValue(Digits(n)) == n
  {
    if n >= 10 {
      DigitsRoundTrip(n / 10);
      var r := Digits(n);
      assert r[..|r| - 1] == Digits(n / 10);
    }
  }

  /** `str(i)` for an integer. */
  function IntText(i: int): string {
    if i < 0 then "-" + Digits(-i) else Digits(i)
  }

  /** `str(v)`: how an f-string shows a present value. */
  function Show(v: Scalar): (r: string)
    ensures v.Int? && v.i >= 0 ==> DecimalValue(r) == v.i
    ensures v.Int? && v.i < 0 ==> |r| > 1 && r[0] == '-' && DecimalValue(r[1..]) == -v.i
  {
    match v
    case Null => "None"
    case Bool(b) => if b then "True" else "False"
    case Int(i) =>
      DigitsRoundTrip(if i < 0 then -i else i);
      assert i < 0 ==> IntText(i)[1..] == Digits(-i);
      IntText(i)
    case Real(x) => x.text
    case Str(s) => s
  }

  /** `m.get(key, default)` as an f-string shows it. */
  function Get(m: Fields, key: string, default: string): (r: string)
    ensures key !in m ==> r == default
    ensures key in m ==> r == Show(m[key])
  {
    if key in m then Show(m[key]) else default
  }

  function Lookup(m: Fields, key: string): Option<Scalar> {
    if key in m then Some(m[key]) else None
  }

  /** The exceptions `format(v, '.0%')` raises: `None` has no such format
      (TypeError), neither has a string (ValueError), and an integer too
      large for a double cannot be converted to one (OverflowError). */
  datatype FormatError = TypeError | ValueError | OverflowError

  function Abs(i: int): nat {
    if i < 0 then -i else i
  }

  /** The least magnitude `float(i)` rejects, 2^1024 - 2^970: from here on
      an integer rounds past the largest double, 2^1024 - 2^971. */
  const FloatLimit: int := 0xFFFF_FFFF_FFFF_FC_000000000000000000000000000000000000000000000000000000000000_000000000000000000000000000000000000000000000000000000000000_000000000000000000000000000000000000000000000000000000000000_000000000000000000000000000000000000000000000000000000000000_00

  /** `float(i)` succeeds. */
  predicate FitsFloat(i: int) {
    Abs(i) < FloatLimit
  }

  /** `format(v, '.0%')` for a confidence read with `.get(key, 0)`: an
      absent key formats the default `0`. An integer is converted to a
      double first, which fails for one too large; below that the model
      prints the exact product, see the note on `Percent` in the README. */
  function Percent(v: Option<Scalar>): (r: Result<string, FormatError>)
    ensures r.Failure? <==> v == Some(Null) || (v.Some? && v.value.Str?)
                            || (v.Some? && v.value.Int? && !FitsFloat(v.value.i))
    ensures v.None? ==> r == Success("0%")
  {
    match v
    case None => Success("0%")
    case Some(Null) => Failure(TypeError)
    case Some(Str(_)) => Failure(ValueError)
    case Some(Bool(b)) => Success(if b then "100%" else "0%")
    case Some(Int(i)) => if FitsFloat(i) then Success(IntText(100 * i) + "%") else Failure(OverflowError)
    case Some(Real(x)) => Success(x.percent)
  }

  /** Which exception each unformattable confidence raises. */
  lemma PercentErrors(v: Option<Scalar>)
    ensures Percent(v) == Failure(TypeError) <==> v == Some(Null)
    ensures Percent(v) == Failure(ValueError) <==> v.Some? && v.value.Str?
    ensures Percent(v) == Failure(OverflowError) <==> v.Some? && v.value.Int? && !FitsFloat(v.value.i)
  {
  }

  /** The integers that can be formatted end just below `FloatLimit`, in
      both directions. */
  lemma HugeConfidence()
    ensures Percent(Some(Int(FloatLimit - 1))).Success?
    ensures Percent(Some(Int(1 - FloatLimit))).Success?
    ensures Percent(Some(Int(FloatLimit))) == Failure(OverflowError)
    ensures Percent(Some(Int(-FloatLimit))) == Failure(OverflowError)
  {
  }

  /** One `print` call: fixed text, or a prefix followed by a percentage. */
  datatype Piece = Plain(text: string) | Pct(prefix: string, value: Option<Scalar>)

  /** The text a piece prints, or the exception it raises. */
  function PieceText(p: Piece): (r: Result<string, FormatError>)
    ensures r.Success? ==> StartsWith(r.value, Head(p))
  {
    match p
    case Plain(t) => Success(t)
    case Pct(prefix, v) =>
      var s :- Percent(v);
      Success(prefix + s)
  }

  predicate Printable(p: Piece) {
    PieceText(p).Success?
  }

  /** The text a piece is known to start with. */
  function Head(p: Piece): string {
    match p
    case Plain(t) => t
    case Pct(prefix, _) => prefix
  }

  /** A piece that is not a section title: its text starts with a character
      no section title starts with. */
  predicate Ordinary(p: Piece) {
    |Head(p)| > 0 && OrdinaryStart(Head(p)[0])
  }

  predicate OrdinaryStart(c: char) {
    c == '\n' || c == ' ' || c == '-' || c == '=' || c == 'E' || c == 'O' || c == 'S'
  }

  /** The four item lists, in the order they are reported. */
  datatype Kind = Pipes | Fittings | Valves | Flanges {

    function Title(): (t: string)
      ensures |t| > 0 && !OrdinaryStart(t[0])
    {
      match this
      case Pipes => "PIPES"
      case Fittings => "FITTINGS"
      case Valves => "VALVES"
      case Flanges => "FLANGES"
    }

    /** How many lines each item prints. */
    function Width(): nat {
      match this
      case Pipes => 6
      case Fittings => 4
      case Valves => 5
      case Flanges => 4
    }
  }

  /** No two sections share a title. */
  lemma TitleInjective(a: Kind, b: Kind)
    requires a.Title() == b.Title()
    ensures a == b
  {
  }

  /** The list the report reads for a section. */
  function Section(data: Extracted, kind: Kind): Option<seq<Fields>> {
    match kind
    case Pipes => data.pipes
    case Fittings => data.fittings
    case Valves => data.valves
    case Flanges => data.flanges
  }

  /** `"key" in data and data["key"]`: the key is present and its list is
      not empty. */
  predicate Listed(items: Option<seq<Fields>>) {
    items.Some? && |items.value| > 0
  }

  /** A rule of 80 copies of one character. */
  function Rule(c: char): string {
    Repeat(c, 80)
  }

  /** The lines printed for one item: every text field falls back to `N/A`,
      a quantity to `0`, and the confidence line comes last. */
  function ItemPieces(kind: Kind, item: Fields): (ps: seq<Piece>)
    ensures |ps| == kind.Width()
    ensures forall p :: p in ps ==> Ordinary(p)
    ensures ps[|ps| - 1] == Pct("  Confidence: ", Lookup(item, "confidence"))
    ensures forall i :: 0 <= i < |ps| - 1 ==> ps[i].Plain?
  {
    var confidence := Pct("  Confidence: ", Lookup(item, "confidence"));
    match kind
    case Pipes =>
      [ Plain("\nLine: " + Get(item, "line_number", NA)),
        Plain("  Size: " + Get(item, "size", NA) + " " + Get(item, "schedule", NA)),
        Plain("  Material: " + Get(item, "material", NA)),
        Plain("  Service: " + Get(item, "service", NA)),
        Plain("  Length: " + Get(item, "length_ft", NA) + " ft"),
        confidence ]
    case Fittings =>
      [ Plain("\n" + Get(item, "quantity", "0") + "× " + Get(item, "type", NA)),
        Plain("  Size: " + Get(item, "size", NA)),
        Plain("  Material: " + Get(item, "material", NA)),
        confidence ]
    case Valves =>
      [ Plain("\n" + Get(item, "quantity", "0") + "× " + Get(item, "type", NA)),
        Plain("  Size: " + Get(item, "size", NA) + " " + Get(item, "pressure_class", NA)),
        Plain("  Operator: " + Get(item, "operator", NA)),
        Plain("  Material: " + Get(item, "material", NA)),
        confidence ]
    case Flanges =>
      [ Plain("\n" + Get(item, "quantity", "0") + "× " + Get(item, "type", NA)),
        Plain("  Size: " + Get(item, "size", NA) + " " + Get(item, "pressure_class", NA)),
        Plain("  Material: " + Get(item, "material", NA)),
        confidence ]
  }

  predicate AllPrintable(ps: seq<Piece>) {
    forall p :: p in ps ==> Printable(p)
  }

  /** Every item's confidence can be formatted. */
  predicate ConfidencesPrintable(items: seq<Fields>) {
    forall i :: 0 <= i < |items| ==> Percent(Lookup(items[i], "confidence")).Success?
  }

  /** An item prints without an exception exactly when its confidence formats. */
  lemma ItemPrintable(kind: Kind, item: Fields)
    ensures AllPrintable(ItemPieces(kind, item)) <==> Percent(Lookup(item, "confidence")).Success?
  {
    var ps := ItemPieces(kind, item);
    assert ps[|ps| - 1] in ps;
  }

  /** The blocks of all items of a list, one after another in list order. */
  function ItemsPieces(kind: Kind, items: seq<Fields>): (ps: seq<Piece>)
    ensures |ps| == kind.Width() * |items|
    ensures forall p :: p in ps ==> Ordinary(p)
    ensures AllPrintable(ps) <==> ConfidencesPrintable(items)
  {
    if |items| == 0 then
      []
    else
      var head, tail := ItemPieces(kind, items[0]), ItemsPieces(kind, items[1..]);
      ItemPrintable(kind, items[0]);
      assert ConfidencesPrintable(items) <==>
             Percent(Lookup(items[0], "confidence")).Success? && ConfidencesPrintable(items[1..]) by {
        if Percent(Lookup(items[0], "confidence")).Success? && ConfidencesPrintable(items[1..]) {
          forall i | 0 <= i < |items| ensures Percent(Lookup(items[i], "confidence")).Success? {
            if i > 0 { assert items[i] == items[1..][i - 1]; }
          }
        }
      }
      head + tail
  }

  /** Item blocks of two lists joined are the blocks of the joined list. */
  lemma {:induction false} ItemsConcat(kind: Kind, xs: seq<Fields>, ys: seq<Fields>)
    ensures ItemsPieces(kind, xs + ys) == ItemsPieces(kind, xs) + ItemsPieces(kind, ys)
  {
    if |xs| == 0 {
      assert xs + ys == ys;
    } else {
      assert (xs + ys)[0] == xs[0];
      assert (xs + ys)[1..] == xs[1..] + ys;
      ItemsConcat(kind, xs[1..], ys);
    }
  }

  lemma ItemsSingle(kind: Kind, x: Fields)
    ensures ItemsPieces(kind, [x]) == ItemPieces(kind, x)
  {
    assert [x][1..] == [];
  }

  /** Item `i`'s block comes after the blocks of the items before it and
      before those of the items after it. */
  lemma ItemOrder(kind: Kind, items: seq<Fields>, i: nat)
    requires i < |items|
    ensures ItemsPieces(kind, items)
            == ItemsPieces(kind, items[..i]) + ItemPieces(kind, items[i]) + ItemsPieces(kind, items[i + 1..])
  {
    var before, x, after := items[..i], items[i], items[i + 1..];
    assert items == (before + [x]) + after;
    ItemsConcat(kind, before + [x], after);
    ItemsConcat(kind, before, [x]);
    ItemsSingle(kind, x);
  }

  /** A section: a rule, its title and a rule, then the item blocks; nothing
      at all when the list is absent or empty. */
  function SectionPieces(kind: Kind, items: Option<seq<Fields>>): seq<Piece> {
    if Listed(items) then
      [Plain("\n" + Rule('-')), Plain(kind.Title()), Plain(Rule('-'))] + ItemsPieces(kind, items.value)
    else
      []
  }

  /** The number of lines a section prints. */
  function SectionSize(kind: Kind, items: Option<seq<Fields>>): nat {
    if Listed(items) then 3 + kind.Width() * |items.value| else 0
  }

  /** The drawing header, present exactly when the `drawing` key is. */
  function DrawingPieces(drawing: Option<Fields>): seq<Piece> {
    match drawing
    case None => []
    case Some(d) =>
      [ Plain("\nDrawing: " + Get(d, "number", NA) + " - " + Get(d, "title", NA)),
        Plain("Scale: " + Get(d, "scale", NA) + " | Revision: " + Get(d, "revision", NA)) ]
  }

  predicate HasNotes(notes: Option<seq<Scalar>>) {
    notes.Some? && |notes.value| > 0
  }

  /** One bullet per note, in order. */
  function Bullets(notes: seq<Scalar>): (ps: seq<Piece>)
    ensures |ps| == |notes|
    ensures forall p :: p in ps ==> p.Plain?
  {
    seq(|notes|, i requires 0 <= i < |notes| => Plain("  • " + Show(notes[i])))
  }

  function NotesPieces(notes: Option<seq<Scalar>>): seq<Piece> {
    if HasNotes(notes) then [Plain("\nNotes:")] + Bullets(notes.value) else []
  }

  function NotesSize(notes: Option<seq<Scalar>>): nat {
    if HasNotes(notes) then 1 + |notes.value| else 0
  }

  function Banner(): seq<Piece> {
    [Plain(Rule('=')), Plain("EXTRACTED BILL OF MATERIALS"), Plain(Rule('='))]
  }

  /** The overall confidence, the notes and the closing rule. */
  function Closing(data: Extracted): seq<Piece> {
    [Plain("\n" + Rule('=')), Pct("Overall Confidence: ", data.overallConfidence)]
    + NotesPieces(data.notes) + [Plain(Rule('='))]
  }

  /** The sections, between the drawing header and the closing block. */
  function Sections(data: Extracted): seq<Piece> {
    SectionPieces(Pipes, data.pipes) + SectionPieces(Fittings, data.fittings)
    + SectionPieces(Valves, data.valves) + SectionPieces(Flanges, data.flanges)
  }

  /** The whole report laid out, one piece per `print` call. */
  function Template(data: Extracted): seq<Piece> {
    Banner() + DrawingPieces(data.drawing) + Sections(data) + Closing(data)
  }

  /** What was printed, and the exception that stopped printing, if any. */
  datatype Printed = Printed(lines: seq<string>, error: Option<FormatError>)

  /** Print the pieces in order until one raises. */
  function Execute(ps: seq<Piece>): (out: Printed)
    ensures out.error.None? <==> AllPrintable(ps)
    ensures out.error.None? ==> |out.lines| == |ps|
    ensures out.error.Some? ==>
              |out.lines| < |ps| && PieceText(ps[|out.lines|]) == Failure(out.error.value)
    ensures forall i :: 0 <= i < |out.lines| && i < |ps| ==> PieceText(ps[i]) == Success(out.lines[i])
  {
    if |ps| == 0 then
      Printed([], None)
    else
      match PieceText(ps[0])
      case Failure(e) =>
        assert ps[0] in ps;
        Printed([], Some(e))
      case Success(t) =>
        var rest := Execute(ps[1..]);
        PrintedStep(ps, t, rest);
        Printed([t] + rest.lines, rest.error)
  }

  /** What `Execute` promises about `out` for the pieces `ps`, restated as
      one predicate so that `PrintedStep` can prove a single step apart from
      the recursion; `Execute` keeps the four clauses spelled out as its
      contract. */
  predicate PrintedFrom(ps: seq<Piece>, out: Printed) {
    && (out.error.None? <==> AllPrintable(ps))
    && (out.error.None? ==> |out.lines| == |ps|)
    && (out.error.Some? ==> |out.lines| < |ps| && PieceText(ps[|out.lines|]) == Failure(out.error.value))
    && (forall i :: 0 <= i < |out.lines| && i < |ps| ==> PieceText(ps[i]) == Success(out.lines[i]))
  }

  /** Printing a first piece that formats in front of the rest. */
  lemma PrintedStep(ps: seq<Piece>, t: string, rest: Printed)
    requires |ps| > 0 && PieceText(ps[0]) == Success(t)
    requires PrintedFrom(ps[1..], rest)
    ensures PrintedFrom(ps, Printed([t] + rest.lines, rest.error))
  {
    var out := Printed([t] + rest.lines, rest.error);
    AllPrintableConcat([ps[0]], ps[1..]);
    assert [ps[0]] + ps[1..] == ps;
    forall i | 0 <= i < |out.lines| && i < |ps| ensures PieceText(ps[i]) == Success(out.lines[i]) {
      if i > 0 {
        assert ps[i] == ps[1..][i - 1] && out.lines[i] == rest.lines[i - 1];
      }
    }
    if out.error.Some? {
      assert ps[|out.lines|] == ps[1..][|rest.lines|];
    }
  }

  /** `print_bom(data)`. */
  function Render(data: Extracted): Printed {
    Execute(Template(data))
  }

  /** Every confidence the report formats can be formatted. */
  predicate ReportPrintable(data: Extracted) {
    && Percent(data.overallConfidence).Success?
    && (forall kind: Kind :: Listed(Section(data, kind)) ==> ConfidencesPrintable(Section(data, kind).value))
  }

  lemma AllPrintableConcat(a: seq<Piece>, b: seq<Piece>)
    ensures AllPrintable(a + b) <==> AllPrintable(a) && AllPrintable(b)
  {
    if AllPrintable(a) && AllPrintable(b) {
      forall p | p in a + b ensures Printable(p) {
        assert p in a || p in b;
      }
    }
  }

  /** A section prints without an exception exactly when it is left out or
      all its item confidences format. */
  lemma SectionPrintable(data: Extracted, kind: Kind)
    ensures AllPrintable(SectionPieces(kind, Section(data, kind)))
            <==> (Listed(Section(data, kind)) ==> ConfidencesPrintable(Section(data, kind).value))
  {
    var items := Section(data, kind);
    if Listed(items) {
      var header := [Plain("\n" + Rule('-')), Plain(kind.Title()), Plain(Rule('-'))];
      AllPrintableConcat(header, ItemsPieces(kind, items.value));
    }
  }

  /** The closing block prints without an exception exactly when the overall
      confidence formats. */
  lemma ClosingPrintable(data: Extracted)
    ensures AllPrintable(Closing(data)) <==> Percent(data.overallConfidence).Success?
  {
    var overall := Pct("Overall Confidence: ", data.overallConfidence);
    var c := Closing(data);
    var notes := NotesPieces(data.notes);
    assert forall p :: p in notes ==> p.Plain?;
    assert c == [Plain("\n" + Rule('=')), overall] + notes + [Plain(Rule('='))];
    assert overall in c;
    if Percent(data.overallConfidence).Success? {
      forall p | p in c ensures Printable(p) {
        assert p == overall || p.Plain?;
      }
    }
  }

  /** `ReportPrintable`, one section at a time. */
  lemma ReportPrintableBySection(data: Extracted)
    ensures ReportPrintable(data) <==>
      && Percent(data.overallConfidence).Success?
      && AllPrintable(SectionPieces(Pipes, Section(data, Pipes)))
      && AllPrintable(SectionPieces(Fittings, Section(data, Fittings)))
      && AllPrintable(SectionPieces(Valves, Section(data, Valves)))
      && AllPrintable(SectionPieces(Flanges, Section(data, Flanges)))
  {
    SectionPrintable(data, Pipes);
    SectionPrintable(data, Fittings);
    SectionPrintable(data, Valves);
    SectionPrintable(data, Flanges);
    if && Percent(data.overallConfidence).Success?
       && AllPrintable(SectionPieces(Pipes, Section(data, Pipes)))
       && AllPrintable(SectionPieces(Fittings, Section(data, Fittings)))
       && AllPrintable(SectionPieces(Valves, Section(data, Valves)))
       && AllPrintable(SectionPieces(Flanges, Section(data, Flanges)))
    {
      forall kind: Kind | Listed(Section(data, kind))
        ensures ConfidencesPrintable(Section(data, kind).value)
      {
        match kind
        case Pipes =>
        case Fittings =>
        case Valves =>
        case Flanges =>
      }
    }
  }

  lemma TemplatePrintable(data: Extracted)
    ensures AllPrintable(Template(data)) <==> ReportPrintable(data)
  {
    var a := Banner() + DrawingPieces(data.drawing);
    var s1 := SectionPieces(Pipes, data.pipes);
    var s2 := SectionPieces(Fittings, data.fittings);
    var s3 := SectionPieces(Valves, data.valves);
    var s4 := SectionPieces(Flanges, data.flanges);
    var c := Closing(data);
    assert AllPrintable(a);
    AllPrintableConcat(s1, s2);
    AllPrintableConcat(s1 + s2, s3);
    AllPrintableConcat(s1 + s2 + s3, s4);
    AllPrintableConcat(a, Sections(data));
    AllPrintableConcat(a + Sections(data), c);
    ClosingPrintable(data);
    ReportPrintableBySection(data);
  }

  /** The report is printed to its end exactly when no overall or item
      confidence is `null` or a string; absent confidences never stop it. */
  lemma RenderCompletesIff(data: Extracted)
    ensures Render(data).error.None? <==> ReportPrintable(data)
  {
    TemplatePrintable(data);
  }

  /** A piece of the report is ordinary text or the title of a listed section. */
  ghost predicate Placed(data: Extracted, p: Piece) {
    Ordinary(p) || exists k: Kind :: p == Plain(k.Title()) && Listed(Section(data, k))
  }

  lemma SectionPlaced(data: Extracted, kind: Kind)
    ensures forall p :: p in SectionPieces(kind, Section(data, kind)) ==> Placed(data, p)
  {
    var items := Section(data, kind);
    if Listed(items) {
      var header := [Plain("\n" + Rule('-')), Plain(kind.Title()), Plain(Rule('-'))];
      assert Ordinary(header[0]) && Ordinary(header[2]);
      assert Placed(data, header[1]);
      forall p | p in SectionPieces(kind, items) ensures Placed(data, p) {
        assert p in header || p in ItemsPieces(kind, items.value);
      }
    }
  }

  lemma ClosingOrdinary(data: Extracted)
    ensures forall p :: p in Closing(data) ==> Ordinary(p)
  {
    var notes := NotesPieces(data.notes);
    if HasNotes(data.notes) {
      forall p | p in notes ensures Ordinary(p) {
        if p != Plain("\nNotes:") {
          var i :| 0 <= i < |data.notes.value| && p == Bullets(data.notes.value)[i];
        }
      }
    }
    assert Rule('=')[0] == '=';
  }

  /** Every piece of the report is ordinary text or the title of a listed
      section. */
  lemma TemplatePlaced(data: Extracted)
    ensures forall p :: p in Template(data) ==> Placed(data, p)
  {
    assert Rule('=')[0] == '=';
    var a := Banner() + DrawingPieces(data.drawing);
    assert forall p :: p in a ==> Ordinary(p);
    var s1 := SectionPieces(Pipes, Section(data, Pipes));
    var s2 := SectionPieces(Fittings, Section(data, Fittings));
    var s3 := SectionPieces(Valves, Section(data, Valves));
    var s4 := SectionPieces(Flanges, Section(data, Flanges));
    var c := Closing(data);
    SectionPlaced(data, Pipes);
    SectionPlaced(data, Fittings);
    SectionPlaced(data, Valves);
    SectionPlaced(data, Flanges);
    ClosingOrdinary(data);
    forall p | p in Sections(data) ensures Placed(data, p) {
      assert p in s1 || p in s2 || p in s3 || p in s4;
    }
    forall p | p in Template(data) ensures Placed(data, p) {
      assert p in a || p in Sections(data) || p in c;
    }
  }

  lemma TitleListed(data: Extracted, kind: Kind)
    requires Listed(Section(data, kind))
    ensures Plain(kind.Title()) in Template(data)
  {
    var s := SectionPieces(kind, Section(data, kind));
    assert s[1] == Plain(kind.Title());
    assert s[1] in s;
  }

  /** When the report is printed to its end, every line is the text of the
      piece at the same place. */
  lemma RenderLines(data: Extracted)
    requires Render(data).error.None?
    ensures |Render(data).lines| == |Template(data)|
    ensures forall i :: 0 <= i < |Template(data)| ==>
              PieceText(Template(data)[i]) == Success(Render(data).lines[i])
  {
  }

  /** A piece of the report that prints a section title is that section's
      header, so the section is listed. */
  lemma TitleTextIsHeader(data: Extracted, p: Piece, kind: Kind)
    requires Placed(data, p)
    requires PieceText(p) == Success(kind.Title())
    ensures Listed(Section(data, kind))
  {
    var k: Kind :| p == Plain(k.Title()) && Listed(Section(data, k));
    TitleInjective(k, kind);
  }

  /** Each of the PIPES, FITTINGS, VALVES and FLANGES headers is printed
      exactly when its key is present with a non-empty list. */
  lemma HeaderShownIff(data: Extracted, kind: Kind)
    requires Render(data).error.None?
    ensures kind.Title() in Render(data).lines <==> Listed(Section(data, kind))
  {
    if Listed(Section(data, kind)) {
      HeaderShown(data, kind);
    }
    if kind.Title() in Render(data).lines {
      HeaderListed(data, kind);
    }
  }

  lemma HeaderShown(data: Extracted, kind: Kind)
    requires Render(data).error.None?
    requires Listed(Section(data, kind))
    ensures kind.Title() in Render(data).lines
  {
    var ps, lines := Template(data), Render(data).lines;
    RenderLines(data);
    TitleListed(data, kind);
    var j :| 0 <= j < |ps| && ps[j] == Plain(kind.Title());
    assert lines[j] == kind.Title();
  }

  lemma HeaderListed(data: Extracted, kind: Kind)
    requires Render(data).error.None?
    requires kind.Title() in Render(data).lines
    ensures Listed(Section(data, kind))
  {
    var ps, lines := Template(data), Render(data).lines;
    RenderLines(data);
    var j :| 0 <= j < |lines| && lines[j] == kind.Title();
    TemplatePlaced(data);
    assert ps[j] in ps;
    TitleTextIsHeader(data, ps[j], kind);
  }

  /** How many lines a report prints when it runs to its end. */
  function ReportSize(data: Extracted): nat {
    3 + (if data.drawing.Some? then 2 else 0)
    + SectionSize(Pipes, data.pipes) + SectionSize(Fittings, data.fittings)
    + SectionSize(Valves, data.valves) + SectionSize(Flanges, data.flanges)
    + 3 + NotesSize(data.notes)
  }

  lemma SectionLength(kind: Kind, items: Option<seq<Fields>>)
    ensures |SectionPieces(kind, items)| == SectionSize(kind, items)
  {
  }

  lemma ClosingLength(data: Extracted)
    ensures |Closing(data)| == 3 + NotesSize(data.notes)
  {
  }

  lemma TemplateSplit(data: Extracted)
    ensures Template(data) == Banner() + DrawingPieces(data.drawing) + Sections(data) + Closing(data)
  {
  }

  lemma TemplateLength(data: Extracted)
    ensures |Template(data)| == ReportSize(data)
  {
    TemplateSplit(data);
    ClosingLength(data);
    SectionLength(Pipes, data.pipes);
    SectionLength(Fittings, data.fittings);
    SectionLength(Valves, data.valves);
    SectionLength(Flanges, data.flanges);
    var s1 := SectionPieces(Pipes, data.pipes);
    var s2 := SectionPieces(Fittings, data.fittings);
    var s3 := SectionPieces(Valves, data.valves);
    var s4 := SectionPieces(Flanges, data.flanges);
    assert |Sections(data)| == |s1| + |s2| + |s3| + |s4|;
  }

  /** The closing block is the tail of the report. */
  lemma ClosingAtEnd(data: Extracted, i: nat)
    requires i < |Closing(data)|
    ensures |Closing(data)| <= |Template(data)|
    ensures Template(data)[|Template(data)| - |Closing(data)| + i] == Closing(data)[i]
  {
    TemplateSplit(data);
    var x := Banner() + DrawingPieces(data.drawing) + Sections(data);
    assert Template(data) == x + Closing(data);
  }

  lemma BannerFirst(data: Extracted)
    ensures |Template(data)| >= 3
    ensures forall i :: 0 <= i < 3 ==> Template(data)[i] == Banner()[i]
  {
    TemplateSplit(data);
  }

  lemma RenderLength(data: Extracted)
    requires Render(data).error.None?
    ensures |Render(data).lines| == ReportSize(data)
  {
    TemplateLength(data);
  }

  /** The banner's three lines open every report. */
  lemma BannerLines(data: Extracted)
    requires Render(data).error.None?
    ensures var lines := Render(data).lines;
            && |lines| >= 3
            && lines[0] == Rule('=') && lines[1] == "EXTRACTED BILL OF MATERIALS" && lines[2] == Rule('=')
  {
    var ps := Template(data);
    RenderLines(data);
    BannerFirst(data);
    assert ps[0] == Banner()[0] && ps[1] == Banner()[1] && ps[2] == Banner()[2];
  }

  /** The last lines of a completed report are the closing block's texts. */
  lemma ClosingLine(data: Extracted, i: nat)
    requires Render(data).error.None?
    requires i < |Closing(data)|
    ensures var lines := Render(data).lines;
            && |Closing(data)| <= |lines|
            && PieceText(Closing(data)[i]) == Success(lines[|lines| - |Closing(data)| + i])
  {
    RenderLines(data);
    ClosingAtEnd(data, i);
  }

  /** The overall confidence line, which a completed report can format. */
  lemma OverallLine(data: Extracted)
    requires Render(data).error.None?
    ensures var lines, n := Render(data).lines, NotesSize(data.notes);
            && |lines| >= 3 + n
            && Percent(data.overallConfidence).Success?
            && lines[|lines| - 2 - n] == "Overall Confidence: " + Percent(data.overallConfidence).value
  {
    ClosingLength(data);
    ClosingLine(data, 1);
  }

  /** The closing block's two rules. */
  lemma ClosingRules(data: Extracted)
    requires Render(data).error.None?
    ensures var lines, n := Render(data).lines, NotesSize(data.notes);
            && |lines| >= 3 + n
            && lines[|lines| - 3 - n] == "\n" + Rule('=')
            && lines[|lines| - 1] == Rule('=')
  {
    var n := NotesSize(data.notes);
    ClosingLength(data);
    ClosingLine(data, 0);
    ClosingLine(data, 2 + n);
  }

  /** A report that runs to its end opens with the banner and closes with a
      rule, the overall confidence line and, when there are notes, the notes
      block, whatever keys the reply has. */
  lemma ReportFrame(data: Extracted)
    requires Render(data).error.None?
    ensures |Render(data).lines| == ReportSize(data)
    ensures var lines := Render(data).lines;
            lines[0] == Rule('=') && lines[1] == "EXTRACTED BILL OF MATERIALS" && lines[2] == Rule('=')
    ensures var lines, n := Render(data).lines, NotesSize(data.notes);
            && lines[|lines| - 3 - n] == "\n" + Rule('=')
            && Percent(data.overallConfidence).Success?
            && lines[|lines| - 2 - n] == "Overall Confidence: " + Percent(data.overallConfidence).value
            && lines[|lines| - 1] == Rule('=')
  {
    RenderLength(data);
    BannerLines(data);
    OverallLine(data);
    ClosingRules(data);
  }

  /** When there are notes, the notes header and one bullet per note, in
      order, come just before the closing rule. */
  lemma NotesShown(data: Extracted)
    requires Render(data).error.None?
    requires HasNotes(data.notes)
    ensures var lines, notes := Render(data).lines, data.notes.value;
            && |notes| + 2 <= |lines|
            && lines[|lines| - 2 - |notes|] == "\nNotes:"
            && forall i :: 0 <= i < |notes| ==> lines[|lines| - 1 - |notes| + i] == "  • " + Show(notes[i])
  {
    ClosingTail(data);
    ClosingNotes(data);
    BulletsAtEnd(Render(data).lines, Closing(data), data.notes.value);
  }

  /** The closing block's texts are the last lines of a completed report. */
  lemma ClosingTail(data: Extracted)
    requires Render(data).error.None?
    ensures var lines, c := Render(data).lines, Closing(data);
            && |c| <= |lines|
            && forall i :: 0 <= i < |c| ==> PieceText(c[i]) == Success(lines[|lines| - |c| + i])
  {
    RenderLines(data);
    TemplateSplit(data);
    TailTexts(Render(data).lines, Banner() + DrawingPieces(data.drawing) + Sections(data), Closing(data));
  }

  /** Lines that are the texts of `x + c`, piece by piece, end in the texts
      of `c`. */
  lemma TailTexts(lines: seq<string>, x: seq<Piece>, c: seq<Piece>)
    requires |lines| == |x + c|
    requires forall i :: 0 <= i < |x + c| ==> PieceText((x + c)[i]) == Success(lines[i])
    ensures |c| <= |lines|
    ensures forall i :: 0 <= i < |c| ==> PieceText(c[i]) == Success(lines[|lines| - |c| + i])
  {
    forall i | 0 <= i < |c| ensures PieceText(c[i]) == Success(lines[|lines| - |c| + i]) {
      assert (x + c)[|x| + i] == c[i];
    }
  }

  /** With notes, the closing block holds the notes header and one bullet
      per note after the overall confidence. */
  lemma ClosingNotes(data: Extracted)
    requires HasNotes(data.notes)
    ensures var c, notes := Closing(data), data.notes.value;
            && |c| == 4 + |notes|
            && c[2] == Plain("\nNotes:")
            && forall i :: 0 <= i < |notes| ==> c[3 + i] == Plain("  • " + Show(notes[i]))
  {
    var c, notes := Closing(data), data.notes.value;
    ClosingLength(data);
    forall i | 0 <= i < |notes| ensures c[3 + i] == Plain("  • " + Show(notes[i])) {
      assert c[3 + i] == Bullets(notes)[i];
    }
  }

  /** Lines ending in the texts of a closing block with notes end in the
      notes header, the bullets and one more line. */
  lemma BulletsAtEnd(lines: seq<string>, c: seq<Piece>, notes: seq<Scalar>)
    requires |c| == 4 + |notes| && |c| <= |lines|
    requires forall i :: 0 <= i < |c| ==> PieceText(c[i]) == Success(lines[|lines| - |c| + i])
    requires c[2] == Plain("\nNotes:")
    requires forall i :: 0 <= i < |notes| ==> c[3 + i] == Plain("  • " + Show(notes[i]))
    ensures && |notes| + 2 <= |lines|
            && lines[|lines| - 2 - |notes|] == "\nNotes:"
            && forall i :: 0 <= i < |notes| ==> lines[|lines| - 1 - |notes| + i] == "  • " + Show(notes[i])
  {
    assert PieceText(c[2]) == Success(lines[|lines| - |c| + 2]);
    forall i | 0 <= i < |notes| ensures lines[|lines| - 1 - |notes| + i] == "  • " + Show(notes[i]) {
      assert PieceText(c[3 + i]) == Success(lines[|lines| - |c| + 3 + i]);
    }
  }

  /** The notes block is printed exactly when the notes are present and not
      empty: otherwise the overall confidence line comes right before the
      closing rule. */
  lemma NotesShownIff(data: Extracted)
    requires Render(data).error.None?
    ensures var lines := Render(data).lines;
            |lines| >= 2 && (StartsWith(lines[|lines| - 2], "Overall Confidence: ") <==> !HasNotes(data.notes))
  {
    var lines := Render(data).lines;
    if HasNotes(data.notes) {
      var notes := data.notes.value;
      NotesShown(data);
      var last := lines[|lines| - 2];
      assert last == "  • " + Show(notes[|notes| - 1]);
      assert last[0] != "Overall Confidence: "[0];
    } else {
      OverallLine(data);
    }
  }

  /** Where a section starts: its opening rule. */
  lemma SectionOpens(kind: Kind, items: Option<seq<Fields>>)
    requires Listed(items)
    ensures |SectionPieces(kind, items)| > 0 && SectionPieces(kind, items)[0] == Plain("\n" + Rule('-'))
  {
  }

  /** The first piece after the drawing header is a section's opening rule
      or the closing block's. */
  lemma AfterDrawing(data: Extracted)
    ensures |Sections(data) + Closing(data)| > 0
    ensures var first := (Sections(data) + Closing(data))[0];
            first == Plain("\n" + Rule('-')) || first == Plain("\n" + Rule('='))
  {
    var s1 := SectionPieces(Pipes, data.pipes);
    var s2 := SectionPieces(Fittings, data.fittings);
    var s3 := SectionPieces(Valves, data.valves);
    var s4 := SectionPieces(Flanges, data.flanges);
    var c := Closing(data);
    var rest := Sections(data) + c;
    assert Sections(data) == s1 + s2 + s3 + s4;
    if Listed(data.pipes) {
      SectionOpens(Pipes, data.pipes);
      assert rest[0] == s1[0];
    } else if Listed(data.fittings) {
      SectionOpens(Fittings, data.fittings);
      assert rest[0] == s2[0];
    } else if Listed(data.valves) {
      SectionOpens(Valves, data.valves);
      assert rest[0] == s3[0];
    } else if Listed(data.flanges) {
      SectionOpens(Flanges, data.flanges);
      assert rest[0] == s4[0];
    } else {
      assert rest == c;
    }
  }

  /** The piece right after the banner. */
  lemma FourthPiece(data: Extracted)
    ensures |Template(data)| > 3
    ensures data.drawing.Some? ==> Template(data)[3] == DrawingPieces(data.drawing)[0]
    ensures data.drawing.None? ==> Template(data)[3] == (Sections(data) + Closing(data))[0]
  {
    TemplateSplit(data);
    AfterDrawing(data);
    if data.drawing.None? {
      assert Banner() + DrawingPieces(data.drawing) == Banner();
    }
  }

  /** The drawing header is printed, right after the banner, exactly when
      the `drawing` key is present. */
  lemma DrawingShownIff(data: Extracted)
    requires Render(data).error.None?
    ensures |Render(data).lines| > 3
    ensures StartsWith(Render(data).lines[3], "\nDrawing: ") <==> data.drawing.Some?
  {
    var lines := Render(data).lines;
    FourthLine(data);
    FourthPiece(data);
    var p := Template(data)[3];
    if data.drawing.None? {
      AfterDrawing(data);
      assert p == Plain("\n" + Rule('-')) || p == Plain("\n" + Rule('='));
      assert lines[3][1] == '-' || lines[3][1] == '=';
      assert lines[3][1] != "\nDrawing: "[1];
    } else {
      DrawingOpens(data.drawing.value);
      assert p == Plain(lines[3]);
    }
  }

  lemma DrawingOpens(d: Fields)
    ensures StartsWith(DrawingPieces(Some(d))[0].text, "\nDrawing: ")
  {
    var t := DrawingPieces(Some(d))[0].text;
    assert t == "\nDrawing: " + (Get(d, "number", NA) + " - " + Get(d, "title", NA));
  }

  /** The fourth line of a completed report is the fourth piece's text. */
  lemma FourthLine(data: Extracted)
    requires Render(data).error.None?
    ensures |Render(data).lines| > 3 && |Template(data)| > 3
    ensures PieceText(Template(data)[3]) == Success(Render(data).lines[3])
  {
    RenderLines(data);
    BannerFirst(data);
    FourthPiece(data);
  }

  /** A pipe without `length_ft` shows `N/A` for its length. */
  lemma MissingLength(item: Fields)
    requires "length_ft" !in item
    ensures ItemPieces(Pipes, item)[4] == Plain("  Length: N/A ft")
  {
    assert "  Length: " + NA + " ft" == "  Length: N/A ft";
  }

  /** A fitting, valve or flange without `quantity` shows a count of `0`. */
  lemma MissingQuantity(kind: Kind, item: Fields)
    requires kind != Pipes && "quantity" !in item
    ensures StartsWith(Head(ItemPieces(kind, item)[0]), "\n0× ")
  {
    var head := Head(ItemPieces(kind, item)[0]);
    assert head == "\n" + "0" + "× " + Get(item, "type", NA);
    assert head[..4] == "\n0× ";
  }

  /** An item without `confidence` prints `0%` and cannot stop the report. */
  lemma MissingConfidence(kind: Kind, item: Fields)
    requires "confidence" !in item
    ensures var ps := ItemPieces(kind, item);
            PieceText(ps[|ps| - 1]) == Success("  Confidence: 0%")
  {
    assert "  Confidence: " + "0%" == "  Confidence: 0%";
  }

  /** An item with none of its keys: every text field shows `N/A`, the
      count shows `0` and the confidence `0%`. */
  lemma EmptyItem()
    ensures ItemPieces(Pipes, map[]) ==
      [ Plain("\nLine: N/A"), Plain("  Size: N/A N/A"), Plain("  Material: N/A"),
        Plain("  Service: N/A"), Plain("  Length: N/A ft"), Pct("  Confidence: ", None) ]
    ensures ItemPieces(Fittings, map[]) ==
      [ Plain("\n0× N/A"), Plain("  Size: N/A"), Plain("  Material: N/A"), Pct("  Confidence: ", None) ]
    ensures ItemPieces(Valves, map[]) ==
      [ Plain("\n0× N/A"), Plain("  Size: N/A N/A"), Plain("  Operator: N/A"),
        Plain("  Material: N/A"), Pct("  Confidence: ", None) ]
    ensures ItemPieces(Flanges, map[]) ==
      [ Plain("\n0× N/A"), Plain("  Size: N/A N/A"), Plain("  Material: N/A"), Pct("  Confidence: ", None) ]
    ensures PieceText(Pct("  Confidence: ", None)) == Success("  Confidence: 0%")
  {
    assert "  Size: " + NA + " " + NA == "  Size: N/A N/A";
    assert "  Material: " + NA == "  Material: N/A";
    assert "  Confidence: " + "0%" == "  Confidence: 0%";
    assert "\nLine: " + NA == "\nLine: N/A";
    assert "  Service: " + NA == "  Service: N/A";
    assert "  Length: " + NA + " ft" == "  Length: N/A ft";
    assert "\n" + "0" + "× " + NA == "\n0× N/A";
    assert "  Size: " + NA == "  Size: N/A";
    assert "  Operator: " + NA == "  Operator: N/A";
  }

  /** A `drawing` object with none of its keys shows `N/A` in all four places. */
  lemma EmptyDrawing()
    ensures DrawingPieces(Some(map[])) == [Plain("\nDrawing: N/A - N/A"), Plain("Scale: N/A | Revision: N/A")]
  {
    assert "\nDrawing: " + NA + " - " + NA == "\nDrawing: N/A - N/A";
    assert "Scale: " + NA + " | Revision: " + NA == "Scale: N/A | Revision: N/A";
  }

  /** A `null` text field is shown as `None`, not `N/A`: `.get` falls back
      only for a missing key. */
  lemma NullFieldShowsNone()
    ensures ItemPieces(Pipes, map["size" := Str("4\""), "schedule" := Null])[1] == Plain("  Size: 4\" None")
  {
    var m := map["size" := Str("4\""), "schedule" := Null];
    assert Get(m, "size", NA) == "4\"";
    assert Get(m, "schedule", NA) == "None";
    assert "  Size: " + "4\"" + " " + "None" == "  Size: 4\" None";
  }

  /** Filling in a missing key with its own fallback changes no lookup. */
  lemma GetFilled(m: Fields, key: string, v: Scalar, k: string, default: string)
    requires key !in m && (k == key ==> Show(v) == default)
    ensures Get(m, k, default) == Get(m[key := v], k, default)
  {
  }

  /** `.get(key, 'N/A')` on a missing text field prints exactly what the
      string `N/A` stored under that key would: no line of an item depends
      on whether an absent field is missing or literally `N/A`. */
  lemma AbsentIsNA(kind: Kind, item: Fields, key: string)
    requires key !in item && key != "quantity" && key != "confidence"
    ensures ItemPieces(kind, item) == ItemPieces(kind, item[key := Str(NA)])
  {
    var filled := item[key := Str(NA)];
    forall k | k != "quantity" ensures Get(item, k, NA) == Get(filled, k, NA) {
      GetFilled(item, key, Str(NA), k, NA);
    }
    GetFilled(item, key, Str(NA), "quantity", "0");
    assert Lookup(item, "confidence") == Lookup(filled, "confidence");
  }

  /** A missing quantity prints as the integer `0` would. */
  lemma AbsentQuantityIsZero(kind: Kind, item: Fields)
    requires "quantity" !in item
    ensures ItemPieces(kind, item) == ItemPieces(kind, item["quantity" := Int(0)])
  {
    var filled := item["quantity" := Int(0)];
    assert Show(Int(0)) == "0";
    forall k | k != "quantity" ensures Get(item, k, NA) == Get(filled, k, NA) {
      GetFilled(item, "quantity", Int(0), k, NA);
    }
    GetFilled(item, "quantity", Int(0), "quantity", "0");
    assert Lookup(item, "confidence") == Lookup(filled, "confidence");
  }

  /** The same holds for the four fields of the drawing header. */
  lemma AbsentDrawingIsNA(d: Fields, key: string)
    requires key !in d
    ensures DrawingPieces(Some(d)) == DrawingPieces(Some(d[key := Str(NA)]))
  {
    forall k ensures Get(d, k, NA) == Get(d[key := Str(NA)], k, NA) {
      GetFilled(d, key, Str(NA), k, NA);
    }
  }

  /** A reply with none of the keys still prints the banner, the overall
      confidence (as `0%`) and the closing rules. */
  lemma EmptyReplyReport()
    ensures Render(Extracted(None, None, None, None, None, None, None))
            == Printed([Rule('='), "EXTRACTED BILL OF MATERIALS", Rule('='),
                        "\n" + Rule('='), "Overall Confidence: 0%", Rule('=')], None)
  {
    var data := Extracted(None, None, None, None, None, None, None);
    var texts := [Rule('='), "EXTRACTED BILL OF MATERIALS", Rule('='),
                  "\n" + Rule('='), "Overall Confidence: 0%", Rule('=')];
    var ps := Template(data);
    assert ps == Banner() + [Plain("\n" + Rule('=')), Pct("Overall Confidence: ", None), Plain(Rule('='))];
    assert PieceText(ps[4]) == Success(texts[4]) by {
      assert "Overall Confidence: " + "0%" == "Overall Confidence: 0%";
    }
    forall i | 0 <= i < |texts| ensures PieceText(ps[i]) == Success(texts[i]) {
      if i != 4 { assert ps[i] == Plain(texts[i]); }
    }
    RenderIsTexts(data, texts);
  }

  /** The reply `{"drawing": {"number": "P-1"}, "pipes": [], "fittings": [],
      "valves": [], "flanges": [], "overall_confidence": 0.8, "notes": ["ok"]}`. */
  const Sample := Extracted(Some(map["number" := Str("P-1")]), Some([]), Some([]), Some([]), Some([]),
                            Some(Real(Float("0.8", "80%"))), Some([Str("ok")]))

  lemma SampleDrawing()
    ensures DrawingPieces(Sample.drawing) == [Plain("\nDrawing: P-1 - N/A"), Plain("Scale: N/A | Revision: N/A")]
  {
    var d := Sample.drawing.value;
    assert Get(d, "number", NA) == "P-1";
    assert "\nDrawing: " + "P-1" + " - " + "N/A" == "\nDrawing: P-1 - N/A";
    assert "Scale: " + "N/A" + " | Revision: " + "N/A" == "Scale: N/A | Revision: N/A";
  }

  lemma SampleNotes()
    ensures NotesPieces(Sample.notes) == [Plain("\nNotes:"), Plain("  • ok")]
  {
    assert Bullets([Str("ok")]) == [Plain("  • " + "ok")];
    assert "  • " + "ok" == "  • ok";
  }

  /** The sample reply lays out no section: its lists are all empty. */
  lemma SampleTemplate()
    ensures Template(Sample) ==
      [Plain(Rule('=')), Plain("EXTRACTED BILL OF MATERIALS"), Plain(Rule('=')),
       Plain("\nDrawing: P-1 - N/A"), Plain("Scale: N/A | Revision: N/A"),
       Plain("\n" + Rule('=')), Pct("Overall Confidence: ", Sample.overallConfidence),
       Plain("\nNotes:"), Plain("  • ok"), Plain(Rule('='))]
  {
    SampleDrawing();
    SampleNotes();
  }

  /** A report whose every piece prints is exactly the pieces' texts. */
  lemma RenderIsTexts(data: Extracted, texts: seq<string>)
    requires |texts| == |Template(data)|
    requires forall i :: 0 <= i < |texts| ==> PieceText(Template(data)[i]) == Success(texts[i])
    ensures Render(data) == Printed(texts, None)
  {
    var ps := Template(data);
    forall p | p in ps ensures Printable(p) {
      var i :| 0 <= i < |ps| && ps[i] == p;
    }
  }

  /** The sample reply's report: the overall confidence shows as `80%` and
      the note as a bullet. */
  lemma SampleReport()
    ensures Render(Sample) == Printed([Rule('='), "EXTRACTED BILL OF MATERIALS", Rule('='),
                                       "\nDrawing: P-1 - N/A", "Scale: N/A | Revision: N/A",
                                       "\n" + Rule('='), "Overall Confidence: 80%",
                                       "\nNotes:", "  • ok", Rule('=')], None)
  {
    var texts := [Rule('='), "EXTRACTED BILL OF MATERIALS", Rule('='),
                  "\nDrawing: P-1 - N/A", "Scale: N/A | Revision: N/A",
                  "\n" + Rule('='), "Overall Confidence: 80%",
                  "\nNotes:", "  • ok", Rule('=')];
    var ps := Template(Sample);
    SampleTemplate();
    assert PieceText(ps[6]) == Success(texts[6]) by {
      assert "Overall Confidence: " + "80%" == "Overall Confidence: 80%";
    }
    forall i | 0 <= i < |texts| ensures PieceText(ps[i]) == Success(texts[i]) {
      if i != 6 { assert ps[i] == Plain(texts[i]); }
    }
    RenderIsTexts(Sample, texts);
  }

  // A `null` confidence, which the prompt asks the model to send for missing
  // information, stops the report; the corrected report reads it as absent.

  /** A reply whose overall confidence is `null`. */
  const NullOverall := Extracted(None, None, None, None, None, Some(Null), None)

  /** As written, the report stops at the overall confidence line of a reply
      whose overall confidence is `null`, so the closing rule is never printed. */
  lemma NullConfidenceStops()
    ensures Render(NullOverall)
            == Printed([Rule('='), "EXTRACTED BILL OF MATERIALS", Rule('='), "\n" + Rule('=')], Some(TypeError))
  {
    var ps := Template(NullOverall);
    var texts := [Rule('='), "EXTRACTED BILL OF MATERIALS", Rule('='), "\n" + Rule('=')];
    assert ps == Banner() + [Plain("\n" + Rule('=')), Pct("Overall Confidence: ", Some(Null)), Plain(Rule('='))];
    forall i | 0 <= i < |texts| ensures PieceText(ps[i]) == Success(texts[i]) {
      assert ps[i] == Plain(texts[i]);
    }
    ExecuteStopsAt(ps, texts, TypeError);
  }

  /** Pieces whose first failing one follows `texts` print exactly `texts`
      and stop with that piece's exception. */
  lemma {:induction false} ExecuteStopsAt(ps: seq<Piece>, texts: seq<string>, e: FormatError)
    requires |texts| < |ps|
    requires forall i :: 0 <= i < |texts| ==> PieceText(ps[i]) == Success(texts[i])
    requires PieceText(ps[|texts|]) == Failure(e)
    ensures Execute(ps) == Printed(texts, Some(e))
  {
    if |texts| == 0 {
      assert Execute(ps) == Printed([], Some(e));
    } else {
      var tail, rest := ps[1..], texts[1..];
      forall i | 0 <= i < |rest| ensures PieceText(tail[i]) == Success(rest[i]) {
        assert tail[i] == ps[i + 1] && rest[i] == texts[i + 1];
      }
      assert tail[|rest|] == ps[|texts|];
      ExecuteStopsAt(tail, rest, e);
      assert PieceText(ps[0]) == Success(texts[0]);
      assert Execute(ps) == Printed([texts[0]] + rest, Some(e));
      assert [texts[0]] + rest == texts;
    }
  }

  /** The confidence a `null` one reads as: absent. */
  function ClearNone(v: Option<Scalar>): (r: Option<Scalar>)
    ensures r != Some(Null)
    ensures v != Some(Null) ==> r == v
  {
    if v == Some(Null) then None else v
  }

  /** An item whose `null` confidence is dropped. */
  function ClearNull(m: Fields): (r: Fields)
    ensures Lookup(r, "confidence") == ClearNone(Lookup(m, "confidence"))
    ensures forall k :: k != "confidence" ==> Lookup(r, k) == Lookup(m, k)
  {
    if "confidence" in m && m["confidence"] == Null then m - {"confidence"} else m
  }

  function ClearList(items: Option<seq<Fields>>): (r: Option<seq<Fields>>)
    ensures r.Some? <==> items.Some?
    ensures items.Some? ==> |r.value| == |items.value|
    ensures items.Some? ==> forall i :: 0 <= i < |items.value| ==> r.value[i] == ClearNull(items.value[i])
  {
    match items
    case None => None
    case Some(xs) => Some(seq(|xs|, i requires 0 <= i < |xs| => ClearNull(xs[i])))
  }

  /** The reply with every `null` confidence read as absent. */
  function NullsAsAbsent(data: Extracted): Extracted {
    data.(pipes := ClearList(data.pipes), fittings := ClearList(data.fittings),
          valves := ClearList(data.valves), flanges := ClearList(data.flanges),
          overallConfidence := ClearNone(data.overallConfidence))
  }

  /** A confidence the corrected report can show: `null` or formattable. */
  predicate Tolerated(v: Option<Scalar>) {
    v == Some(Null) || Percent(v).Success?
  }

  predicate ConfidencesTolerated(items: seq<Fields>) {
    forall i :: 0 <= i < |items| ==> Tolerated(Lookup(items[i], "confidence"))
  }

  /** Every confidence the report shows is `null` or formattable. */
  predicate ReportTolerated(data: Extracted) {
    && Tolerated(data.overallConfidence)
    && (forall kind: Kind :: Listed(Section(data, kind)) ==> ConfidencesTolerated(Section(data, kind).value))
  }

  /** Every confidence is absent or not `null`. */
  predicate NoNullConfidence(data: Extracted) {
    && data.overallConfidence != Some(Null)
    && (forall kind: Kind :: Section(data, kind).Some? ==>
          forall i :: 0 <= i < |Section(data, kind).value| ==> Lookup(Section(data, kind).value[i], "confidence") != Some(Null))
  }

  lemma ClearedSection(data: Extracted, kind: Kind)
    ensures Section(NullsAsAbsent(data), kind) == ClearList(Section(data, kind))
  {
  }

  lemma ClearedItemsPrintable(items: seq<Fields>)
    ensures ConfidencesPrintable(ClearList(Some(items)).value) <==> ConfidencesTolerated(items)
  {
  }

  lemma ClearedSectionPrintable(data: Extracted, kind: Kind)
    ensures Listed(Section(NullsAsAbsent(data), kind)) <==> Listed(Section(data, kind))
    ensures Listed(Section(data, kind)) ==>
              (ConfidencesPrintable(Section(NullsAsAbsent(data), kind).value)
               <==> ConfidencesTolerated(Section(data, kind).value))
  {
    ClearedSection(data, kind);
    if Listed(Section(data, kind)) {
      ClearedItemsPrintable(Section(data, kind).value);
    }
  }

  /** Reading `null` confidences as absent makes the report printable
      exactly when every confidence is `null` or formattable. */
  lemma ClearedPrintable(data: Extracted)
    ensures ReportPrintable(NullsAsAbsent(data)) <==> ReportTolerated(data)
  {
    var cleared := NullsAsAbsent(data);
    forall kind: Kind
      ensures (Listed(Section(cleared, kind)) ==> ConfidencesPrintable(Section(cleared, kind).value))
              <==> (Listed(Section(data, kind)) ==> ConfidencesTolerated(Section(data, kind).value))
    {
      ClearedSectionPrintable(data, kind);
    }
  }

  /** `print_bom` as evidently intended: a `null` confidence is shown as
      `0%`, like a missing one, so it never stops the report. */
  function RenderTolerant(data: Extracted): (out: Printed)
    ensures out.error.None? <==> ReportTolerated(data)
  {
    RenderCompletesIff(NullsAsAbsent(data));
    ClearedPrintable(data);
    Render(NullsAsAbsent(data))
  }

  /** A reply without `null` confidences is printed as before. */
  lemma TolerantAgrees(data: Extracted)
    requires NoNullConfidence(data)
    ensures RenderTolerant(data) == Render(data)
  {
    forall kind: Kind ensures ClearList(Section(data, kind)) == Section(data, kind) {
      var items := Section(data, kind);
      if items.Some? {
        assert ClearList(items).value == items.value;
      }
    }
    assert ClearList(Section(data, Pipes)) == Section(data, Pipes);
    assert ClearList(Section(data, Fittings)) == Section(data, Fittings);
    assert ClearList(Section(data, Valves)) == Section(data, Valves);
    assert ClearList(Section(data, Flanges)) == Section(data, Flanges);
    assert NullsAsAbsent(data) == data;
  }

  /** The reply that stops the report as written prints to its end once its
      `null` overall confidence reads as absent. */
  lemma NullConfidenceTolerated()
    ensures RenderTolerant(NullOverall)
            == Printed([Rule('='), "EXTRACTED BILL OF MATERIALS", Rule('='),
                        "\n" + Rule('='), "Overall Confidence: 0%", Rule('=')], None)
  {
    assert NullsAsAbsent(NullOverall) == Extracted(None, None, None, None, None, None, None);
    EmptyReplyReport();
  }
}

=== FILE: text.dfy ===
/** The string primitives the script leans on, with Python's meaning:
    `str.find`, `str.rfind`, `in`, `str.strip()`, `str.lower()` and `c * n`. */
module Text {

  /** `pat` occurs in `s` starting at index `i`. */
  predicate OccursAt(s: string, pat: string, i: int) {
    0 <= i && i + |pat| <= |s| && s[i..i + |pat|] == pat
  }

  /** Python's `pat in s`: `pat` is a contiguous substring of `s`. */
  ghost predicate Contains(s: string, pat: string) {
    exists i :: OccursAt(s, pat, i)
  }

  predicate StartsWith(s: string, prefix: string) {
    |prefix| <= |s| && s[..|prefix|] == prefix
  }

  predicate EndsWith(s: string, suffix: string) {
    |suffix| <= |s| && s[|s| - |suffix|..] == suffix
  }

  /** Scan forwards from `from` for the first occurrence of `pat`. */
  function FindFrom(s: string, pat: string, from: nat): (r: int)
    decreases |s| - from
    ensures r == -1 || (from <= r && OccursAt(s, pat, r))
    ensures r == -1 ==> forall j :: from <= j ==> !OccursAt(s, pat, j)
    ensures r != -1 ==> forall j :: from <= j < r ==> !OccursAt(s, pat, j)
  {
    if from + |pat| > |s| then -1
    else if OccursAt(s, pat, from) then from
    else FindFrom(s, pat, from + 1)
  }

  /** Python's `s.find(pat)`: the lowest index where `pat` occurs, or -1. */
  function Find(s: string, pat: string): (r: int)
    ensures r == -1 <==> !Contains(s, pat)
    ensures r != -1 ==> OccursAt(s, pat, r)
    ensures forall j :: 0 <= j < r ==> !OccursAt(s, pat, j)
  {
    FindFrom(s, pat, 0)
  }

  /** Scan backwards from `from` for the last occurrence of `pat`. */
  function RFindFrom(s: string, pat: string, from: int): (r: int)
    decreases from + 1
    ensures r == -1 || (r <= from && OccursAt(s, pat, r))
    ensures r == -1 ==> forall j :: j <= from ==> !OccursAt(s, pat, j)
    ensures r != -1 ==> forall j :: r < j <= from ==> !OccursAt(s, pat, j)
  {
    if from < 0 then -1
    else if OccursAt(s, pat, from) then from
    else RFindFrom(s, pat, from - 1)
  }

  /** Python's `s.rfind(pat)`: the highest index where `pat` occurs, or -1. */
  function RFind(s: string, pat: string): (r: int)
    ensures r == -1 <==> !Contains(s, pat)
    ensures r != -1 ==> OccursAt(s, pat, r)
    ensures forall j :: r < j ==> !OccursAt(s, pat, j)
  {
    RFindFrom(s, pat, |s| - |pat|)
  }

  /** An occurrence with no earlier first character of `pat` is what `find` reports. */
  lemma FindIs(s: string, pat: string, a: int)
    requires |pat| > 0 && OccursAt(s, pat, a)
    requires forall k :: 0 <= k < a ==> s[k] != pat[0]
    ensures Find(s, pat) == a
  {
  }

  /** An occurrence with no later last character of `pat` is what `rfind` reports. */
  lemma RFindIs(s: string, pat: string, e: int)
    requires |pat| > 0 && OccursAt(s, pat, e)
    requires forall k :: e + |pat| <= k < |s| ==> s[k] != pat[|pat| - 1]
    ensures RFind(s, pat) == e
  {
    forall j | e < j ensures !OccursAt(s, pat, j) {
      if j + |pat| <= |s| {
        assert s[j..j + |pat|][|pat| - 1] == s[j + |pat| - 1];
      }
    }
  }

  /** Two strings with the same occurrences of `pat` give the same `rfind`. */
  lemma RFindSameOccurrences(s: string, t: string, pat: string)
    requires forall i :: OccursAt(s, pat, i) <==> OccursAt(t, pat, i)
    ensures RFind(s, pat) == RFind(t, pat)
  {
    var a, b := RFind(s, pat), RFind(t, pat);
    if a != -1 { assert OccursAt(t, pat, a); }
    if b != -1 { assert OccursAt(s, pat, b); }
  }

  /** An occurrence inside an occurrence is an occurrence in the whole. */
  lemma OccursWithin(s: string, x: string, a: int, r: string, b: int)
    requires OccursAt(s, x, a) && OccursAt(x, r, b)
    ensures OccursAt(s, r, a + b)
  {
    forall k | 0 <= k < |r| ensures s[a + b + k] == r[k] {
      assert s[a..a + |x|][b + k] == s[a + b + k];
      assert x[b..b + |r|][k] == x[b + k];
    }
    assert s[a + b..a + b + |r|] == r;
  }

  /** A one-character pattern occurs exactly where that character sits. */
  lemma OccursAtChar(s: string, c: char, i: int)
    ensures OccursAt(s, [c], i) <==> 0 <= i < |s| && s[i] == c
  {
    if 0 <= i < |s| && s[i] == c {
      assert s[i..i + 1] == [c];
    }
  }

  /** The characters Python's `str.isspace()` accepts, which `str.strip()` removes. */
  predicate IsSpace(c: char) {
    || c == ' ' || c == '\t' || c == '\n' || c == '\r' || c == '\U{0B}' || c == '\U{0C}'
    || c == '\U{1C}' || c == '\U{1D}' || c == '\U{1E}' || c == '\U{1F}'
    || c == '\U{85}' || c == '\U{A0}' || c == '\U{1680}'
    || ('\U{2000}' <= c <= '\U{200A}')
    || c == '\U{2028}' || c == '\U{2029}' || c == '\U{202F}' || c == '\U{205F}' || c == '\U{3000}'
  }

  ghost predicate AllSpace(s: string) {
    forall k :: 0 <= k < |s| ==> IsSpace(s[k])
  }

  /** The number of leading whitespace characters. */
  function TrimStart(s: string): (i: nat)
    ensures i <= |s|
    ensures forall k :: 0 <= k < i ==> IsSpace(s[k])
    ensures i < |s| ==> !IsSpace(s[i])
  {
    if |s| == 0 || !IsSpace(s[0]) then 0 else 1 + TrimStart(s[1..])
  }

  /** The length of `s` without its trailing whitespace. */
  function TrimEnd(s: string): (j: nat)
    ensures j <= |s|
    ensures forall k :: j <= k < |s| ==> IsSpace(s[k])
    ensures j > 0 ==> !IsSpace(s[j - 1])
  {
    if |s| == 0 || !IsSpace(s[|s| - 1]) then |s| else TrimEnd(s[..|s| - 1])
  }

  /** `r` is `s` with a whitespace-only prefix of length `i` and a whitespace-only
      suffix removed, and `r` neither starts nor ends with whitespace. */
  ghost predicate StrippedAt(s: string, r: string, i: int) {
    && OccursAt(s, r, i)
    && AllSpace(s[..i])
    && AllSpace(s[i + |r|..])
    && (r == [] || (!IsSpace(r[0]) && !IsSpace(r[|r| - 1])))
  }

  /** Python's `s.strip()` with no argument. */
  function Strip(s: string): (r: string)
    ensures exists i :: StrippedAt(s, r, i)
    ensures r == [] <==> AllSpace(s)
  {
    var i := TrimStart(s);
    if i == |s| then
      assert StrippedAt(s, [], 0);
      []
    else
      var j := TrimEnd(s);
      assert i < j;
      assert StrippedAt(s, s[i..j], i);
      s[i..j]
  }

  /** A non-blank `r` found after a blank prefix starts where `TrimStart` stops. */
  lemma TrimStartAt(s: string, r: string, i: int)
    requires StrippedAt(s, r, i) && r != []
    ensures TrimStart(s) == i
  {
    assert s[i] == r[0] by { assert s[i..i + |r|][0] == s[i]; }
    var t := TrimStart(s);
    assert t >= i ==> t == i;
    assert forall k :: 0 <= k < i ==> s[..i][k] == s[k];
  }

  /** A non-blank `r` followed by a blank suffix ends where `TrimEnd` stops. */
  lemma TrimEndAt(s: string, r: string, i: int)
    requires StrippedAt(s, r, i) && r != []
    ensures TrimEnd(s) == i + |r|
  {
    var e := i + |r|;
    assert s[e - 1] == r[|r| - 1] by { assert s[i..e][|r| - 1] == s[e - 1]; }
    var t := TrimEnd(s);
    assert forall k :: e <= k < |s| ==> s[e..][k - e] == s[k];
  }

  /** An empty `r` between two blank parts means `s` is blank. */
  lemma BlankAround(s: string, i: int)
    requires StrippedAt(s, [], i)
    ensures AllSpace(s)
  {
    forall k | 0 <= k < |s| ensures IsSpace(s[k]) {
      if k < i { assert s[..i][k] == s[k]; } else { assert s[i..][k - i] == s[k]; }
    }
  }

  /** `StrippedAt` has exactly one solution: the string `strip` returns. */
  lemma StripUnique(s: string, r: string, i: int)
    requires StrippedAt(s, r, i)
    ensures Strip(s) == r
  {
    if r == [] {
      BlankAround(s, i);
    } else {
      TrimStartAt(s, r, i);
      TrimEndAt(s, r, i);
    }
  }

  /** Stripping twice is stripping once. */
  lemma StripIdempotent(s: string)
    ensures Strip(Strip(s)) == Strip(s)
  {
    var r := Strip(s);
    assert StrippedAt(r, r, 0) by {
      assert r[..0] == [];
      assert r[|r|..] == [];
      assert r[0..|r|] == r;
    }
    StripUnique(r, r, 0);
  }

  /** ASCII upper-case letters fold to lower case; every other character is kept. */
  function LowerChar(c: char): char {
    if 'A' <= c <= 'Z' then (c as int - 'A' as int + 'a' as int) as char else c
  }

  /** Python's `s.lower()` on the characters that matter here (see README). */
  function Lower(s: string): (r: string)
    ensures |r| == |s|
    ensures forall i :: 0 <= i < |s| ==> r[i] == LowerChar(s[i])
  {
    seq(|s|, i requires 0 <= i < |s| => LowerChar(s[i]))
  }

  /** Lower-casing a lower-cased string changes nothing. */
  lemma LowerIdempotent(s: string)
    ensures Lower(Lower(s)) == Lower(s)
  {
  }

  /** Lower-casing keeps every character that is not an upper-case letter, so
      `/`, `.` and the backtick sit at the same places before and after. */
  lemma LowerKeepsOccurrences(s: string, c: char, i: int)
    requires !('A' <= c <= 'Z') && !('a' <= c <= 'z')
    ensures OccursAt(Lower(s), [c], i) <==> OccursAt(s, [c], i)
  {
    OccursAtChar(s, c, i);
    OccursAtChar(Lower(s), c, i);
  }

  /** Lower-casing commutes with slicing. */
  lemma LowerSlice(s: string, i: int, j: int)
    requires 0 <= i <= j <= |s|
    ensures Lower(s)[i..j] == Lower(s[i..j])
  {
  }

  /** Python's `c * n` for a one-character string `c`. */
  function Repeat(c: char, n: nat): (r: string)
    ensures |r| == n
    ensures forall i :: 0 <= i < n ==> r[i] == c
  {
    seq(n, _ => c)
  }
}

=== FILE: wrappers.dfy ===
/** The two small sum types the model shares between its modules. */
module Wrappers {

  /** A value that may be missing: the result of `dict.get` without a
      default, or of a parser that can reject its input. */
  datatype Option<+T> = None | Some(value: T)

  /** A formatted text, or the exception formatting raised. The three
      members below let `:-` hand an exception on unchanged. */
  datatype Result<+R, +E> = Success(value: R) | Failure(error: E) {

    predicate IsFailure() {
      Failure?
    }

    function PropagateFailure<U>(): Result<U, E>
      requires Failure?
    {
      Failure(error)
    }

    function Extract(): R
      requires Success?
    {
      value
    }
  }
}
